=== FILE: README.md ===
# DS Stock Europe — a Dafny model of the stock scraper

`streamlit_app.py` scans the online new-car stock of DS Automobiles in nine
European countries. The `run_scraper` function does the scan.

- **Modern storefronts** (FRANCE, ESPAGNE, ITALIE) embed a `__NEXT_DATA__` JSON payload.
  - The scraper walks the home-page payload for `{model, bodyStyle}` pairs (`find_models`).
  - It deduplicates them by `"<id>-<bodyId>"`, keeping only those with a truthy name (`unique`).
  - It reads one stock page per unique model. Each page gives an offers count and a fuel-type breakdown, and becomes one 'Précis (API)' row.
- **Legacy storefronts** (ROYAUME-UNI, POLOGNE, PORTUGAL, PAYS-BAS, BELGIQUE, ALLEMAGNE) are searched with patterns. The strategy depends on the country:
  - ALLEMAGNE counts `data-model-text` attributes ('Précis (HTML)').
  - PORTUGAL counts price proximity, with a heading fallback for the DS 4 ('Estimé').
  - Every other country reads the offer catalogues of its JSON-LD blocks ('Global (SEO)'). If none has a positive count, it falls back to engine-keyword proximity ('Estimé (Text)').

The model is a set of pure functions over an explicit JSON datatype. The outside world is an `Env` value holding:

- page fetching;
- the regular-expression searches other than the tag pattern;
- `json.loads`.

An exception the source does not catch becomes an `Err(Crash)` that ends the whole scan.

| file | module | contents |
|---|---|---|
| results.dfy | `Results` | `Option`, `Result`, and the Python exceptions that can escape |
| text.dfy | `Text` | integer rendering, `str.join`, splitting, IGNORECASE folding |
| selection.dfy | `Selection` | keeping the present entries of a sequence in order, and laying batches end to end, each characterised by positions |
| pyjson.dfy | `PyJson` | JSON values as Python sees them: `in`, `.get`, truthiness, `len`, `str`/`repr` |
| discovery.dfy | `Discovery` | `find_models` and its characterisation |
| dedup.dfy | `Dedup` | the `unique` dict comprehension |
| records.dfy | `Records` | result rows, storefront entries, the environment |
| stock_page.dfy | `StockPage` | the stock-page URL, offers, count, details, one record per page |
| legacy.dfy | `Legacy` | the three legacy strategies |
| scraper.dfy | `Scraper` | the registry and the scan |

## Model

| member | source | states |
|---|---|---|
| Records.TierLabelInjective | streamlit_app.py:104-151 | The five `Type` strings the rows carry are pairwise distinct, so the column tells apart how each stock figure was obtained. |
| PyJson.LookupSpec | streamlit_app.py:75-78 | A key lookup in a dict succeeds exactly for the dict's keys, and returns a value bound to that key. |
| PyJson.DictGet | streamlit_app.py:94 | `.get` raises AttributeError exactly when the receiver is not a dict. |
| Discovery.FindModelsIsPreOrder | streamlit_app.py:73-82 | The walk collects one record per qualifying dict, in pre-order over the nested structure: parents before children, dict values and list items in order. |
| Discovery.FindModelsExactly | streamlit_app.py:73-82 | A record is found iff some dict anywhere inside the payload has both `model` and `bodyStyle` as dicts and yields that record. Qualifying dicts nested inside another qualifying dict are found too. |
| Discovery.ParentBeforeNested | streamlit_app.py:73-82 | A qualifying dict's record comes before every record found below it. The records found below it form a contiguous block after it. |
| Discovery.NestedInModelValueFollows | streamlit_app.py:76-79 | Qualifying dicts inside the `model` or `bodyStyle` value are still visited, after the enclosing record. |
| Dedup.PutSpec | streamlit_app.py:85 | Assigning into the dict overwrites an existing key where it stands, or appends a new key. |
| Dedup.ItemsContents | streamlit_app.py:85 | The dict built has distinct keys. Each value is the LAST input record with a truthy name and that key. Its keys are exactly the keys of the records with a truthy name. |
| Dedup.ItemsOrder | streamlit_app.py:85 | The dict's items follow the order in which their keys FIRST occur. |
| Dedup.UniqueSpec | streamlit_app.py:85 | The unique records: have pairwise distinct keys; all have truthy names; each is the last record with its key; cover every key present; are ordered by first occurrence. |
| Dedup.KeyInjectiveWithoutDash | streamlit_app.py:85 | Two records whose rendered ids contain no '-' share a key only if both rendered ids agree. |
| Dedup.DashedIdsCollide | streamlit_app.py:85 | The ids ("1-2","3") and ("1","2-3") share a key. |
| Dedup.NumberAndStringIdsCollide | streamlit_app.py:85 | The number 7 and the string "7" render alike, so their records share a key. |
| Dedup.CollidingRecordsMerge | streamlit_app.py:85 | Two named records with the same key leave only the later one. |
| Text.NatToStringRoundTrip | streamlit_app.py:85 | A non-negative integer id renders to decimal digits that read back as the same number. |
| StockPage.StockUrl | streamlit_app.py:88 | Every stock-page address starts with the storefront root followed by `/stock/`. |
| StockPage.StockUrlRoundTrip | streamlit_app.py:88 | The address can be parsed back into id, body-style id, latitude and longitude, given that the id has no '/', the body id no '?' and the latitude no '&'. |
| StockPage.StockUrlInjective | streamlit_app.py:88 | Under those conditions, two models share a stock page only if their rendered ids agree. |
| StockPage.SlashedIdsShareUrl | streamlit_app.py:88 | Without them, ids ("a/b","c") and ("a","b/c") have different keys but the same stock page. |
| StockPage.OffersSpec | streamlit_app.py:94 | The props → pageProps → offers chain: raises AttributeError exactly when it steps into a present non-dict; otherwise yields the value at the end of the path, or `{}` when a key is missing. |
| StockPage.CountValue | streamlit_app.py:98 | `count > 0` raises TypeError exactly for a count that is neither a number nor a boolean. |
| StockPage.OfferCount | streamlit_app.py:95-98 | The stock is: a dict's numeric `count` as it stands, and a boolean `count` as 0 or 1; 0 for a dict without `count`; the length of a list of offers; 0 for anything else. A dict whose `count` is neither a number nor a boolean raises TypeError at the comparison of line 98. |
| StockPage.FuelLabel | streamlit_app.py:101 | An entry renders as "title (count)" iff it is a dict with both keys. A dict missing one raises KeyError. |
| StockPage.FuelLabels | streamlit_app.py:101 | The labels succeed iff every entry renders, one label per entry in order. Otherwise the error is that of the first failing entry. |
| StockPage.Details | streamlit_app.py:97-101 | The details are empty unless the count is positive and the offers are a dict. |
| StockPage.DetailsSpec | streamlit_app.py:97-101 | The details are non-empty iff the count is positive, the offers are a dict, and the fuel types are a non-empty list of well-formed entries. A non-dict `filters` raises AttributeError. A falsy `fuelTypes` value gives "", a truthy one that is not a list raises TypeError, and a list with a malformed entry raises that entry's error. Otherwise the details join the labels with ", ". |
| StockPage.TwoFuelDetails | streamlit_app.py:99-101 | Two well-formed fuel entries under a positive count give "t1 (c1), t2 (c2)". |
| StockPage.PageRecord | streamlit_app.py:94-105 | A parsed stock page yields a 'Précis (API)' row for the model's name. Its stock is the offer count and its details the breakdown. It crashes exactly when one of those steps raises. |
| StockPage.ModelRecord | streamlit_app.py:89-105 | A record from a stock page always carries the storefront's country, the model's name and the 'Précis (API)' tier. |
| StockPage.ModelRecordSpec | streamlit_app.py:89-105 | A failed fetch or a missing marker yields nothing. An unparsable payload crashes. Otherwise the page yields exactly its record, whatever the count. |
| StockPage.ZeroCountRecorded | streamlit_app.py:94-105 | A stock page reporting a count of 0 still yields a row, with stock 0 and no details. |
| Legacy.TagCountIsOccurrences | streamlit_app.py:121 | For a pattern that cannot overlap itself, `len(re.findall(...))` (a leftmost, non-overlapping scan) equals the number of positions where the pattern matches. |
| Legacy.NoOverlap | streamlit_app.py:121 | Two matches of such a pattern never overlap. |
| Legacy.DsNameOverlapFree | streamlit_app.py:121 | The tag pattern built around any name of the shape "DS n" cannot overlap itself. |
| Legacy.ModelsOverlapFree | streamlit_app.py:116-121 | This holds for all four searched names. |
| Legacy.TagAtLiteral | streamlit_app.py:121 | The pattern matches wherever `data-model-text=` is followed by the name between either kind of quote. |
| Legacy.ThreeTagsCountThree | streamlit_app.py:121 | Three `data-model-text="DS 7"` elements count as 3. |
| Legacy.PerModel | streamlit_app.py:119-123 | A row is produced for each name whose count is positive, carrying that count. Every row has a positive count, the given tier, empty details and a searched name. |
| Legacy.PerModelLists | streamlit_app.py:119-123 | The rows are exactly those the names yield one at a time (a row for a name with a positive count, nothing otherwise), each once, in the order of the names. |
| Legacy.PortugalCount | streamlit_app.py:127-129 | The count is the price-proximity count, except that the heading count replaces it when no price matched and the name contains '4'. |
| Legacy.PortugalFallbackOnlyForDs4 | streamlit_app.py:125-131 | In Portugal, every row other than the DS 4 row, and every row with a price match, carries the price-proximity count. |
| Legacy.SeoCount | streamlit_app.py:140-141 | A block counts iff it is a dict with `hasOfferCatalog` whose catalogue is a dict and whose `itemListElement` has a length. The count is then that length. |
| Legacy.SeoRecords | streamlit_app.py:135-145 | Every block with a positive count has a 'Global (SEO)' row carrying that count. There are rows iff some block has a positive count. |
| Legacy.SeoRecordsLists | streamlit_app.py:137-145 | The rows are exactly those the blocks yield one at a time, one per block with a positive count, in block order. Blocks that fail to parse or to read are skipped. |
| Legacy.SeoStocksFromBlocks | streamlit_app.py:141-143 | Every 'Global (SEO)' row carries the offer count of one of the blocks. |
| Legacy.LegacyRecords | streamlit_app.py:116-151 | All rows of a page: carry its country; have a positive stock and empty details; share one tier. In Germany, each carries the tag count of its model. In Portugal, every searched model with a positive count gets its 'Estimé' row. Elsewhere, when no JSON-LD block has a positive count, every searched model with a positive engine-keyword count gets its 'Estimé (Text)' row. |
| Legacy.LegacyRecordsLists | streamlit_app.py:116-131 | For each strategy, the rows are exactly those the searched names yield one at a time under that strategy's count, each once, in the order DS 3, DS 4, DS 7, DS 9. For the generic strategy this holds when no JSON-LD block has a positive count (lines 147-151). |
| Legacy.TagRecordsCountTags | streamlit_app.py:118-123 | In Germany, each row counts the occurrences of its model's tag, and every searched model that occurs gets a row. |
| Legacy.TagRecordsIgnoreEnv | streamlit_app.py:118-123 | In Germany only the tag strategy runs: the rows depend on the page alone, not on the price, heading, engine-keyword or JSON-LD searches. |
| Legacy.SeoTakesPrecedence | streamlit_app.py:133-151 | Elsewhere, a positive JSON-LD catalogue makes the rows exactly the 'Global (SEO)' rows. Only otherwise do engine-keyword counts appear, and then every searched model with a positive engine-keyword count gets its row. |
| Scraper.ApiRecords | streamlit_app.py:87-105 | The stock pages of the unique models yield at most one row each, all for this storefront and tier. |
| Scraper.GatherSpec | streamlit_app.py:87-105 | The scan of the stock pages crashes iff some page crashes, and then with the first page's error. Otherwise it holds exactly the records the pages yield. |
| Scraper.GatherLists | streamlit_app.py:87-105 | Without a crash, the scan keeps exactly one record per page that yields one, each once, in page order. |
| Scraper.ApiRecordsGather | streamlit_app.py:87-105 | Scanning the pages one at a time, stopping at the first crash, gathers their outcomes. |
| Scraper.ApiRecordsInOrder | streamlit_app.py:87-105 | A completed scan holds one 'Précis (API)' record for each unique model whose stock page yields one, in the order of the models. |
| Scraper.ModernSiteRecords | streamlit_app.py:64-105 | A storefront whose home page fails to fetch, or lacks the `__NEXT_DATA__` marker, contributes nothing. Every row it contributes is a 'Précis (API)' row for its country. |
| Scraper.ModernSiteSpec | streamlit_app.py:66-89 | An unparsable home-page payload crashes. Otherwise the rows are those of the stock pages of the deduplicated models found in the payload. |
| Scraper.ModernAll | streamlit_app.py:64-108 | The modern storefronts crash iff one of them does, with the error of the first that crashes. Otherwise the rows are every storefront's rows laid end to end in registry order, each batch whole and once. |
| Scraper.LegacySiteRecords | streamlit_app.py:111-115 | A legacy storefront whose page fails to fetch contributes nothing. A fetched page contributes the rows its country's strategy reads off it. Its rows carry its country and a positive stock, and none is a 'Précis (API)' row. |
| Scraper.LegacyAll | streamlit_app.py:111-154 | The legacy storefronts never crash. Their rows are every storefront's rows laid end to end in registry order, each batch whole and once. All rows have positive stocks. |
| Scraper.Scan | streamlit_app.py:54-161 | The scan fails iff a modern storefront crashes. Otherwise its rows are the modern storefronts' rows followed by the legacy storefronts' rows, every storefront's batch whole and once, in registry order. Every row names a listed country. Rows other than 'Précis (API)' have positive stocks. |
| Scraper.RunScraperSpec | streamlit_app.py:17-30 | Over the registry, every row names one of the nine countries. The scan fails only through a modern storefront, and the API rows come first. |

## Behaviour of note

- A stock-page payload that fails to parse (line 93) does not just skip that model. `json.loads` raises, and nothing catches it, so the whole scan ends. The same holds for the home-page payload (line 71), for `.get` on a non-dict, for `count > 0` on a non-number, and for a malformed fuel entry.
- A stock is not forced to be non-negative. A negative `count` in a stock-page payload is reported as it is (see `StockPage.OfferCount`).

## Left out

- The Streamlit interface (lines 163 onwards) is not modelled, and neither are the progress bar, the status text, the one-second pause, or the pandas table and its Excel export.
- `fetch_content` (HTTP, TLS settings, headers, timeout, the ten-minute cache, UTF-8 decoding) is the `fetch` function of `Env`. A failed request is `None`.
- The `__NEXT_DATA__` and `application/ld+json` searches are uninterpreted parameters of `Env`. So are the price-proximity, heading and engine-keyword patterns (`.{0,300}`, `<h\d>`, `.{0,50}`, compiled with `re.IGNORECASE` alone, so their `.` does not cross a newline); only the JSON-LD search of line 135 uses `re.DOTALL`. Only the tag pattern of line 121 is modelled character by character.
- `json.loads` is the `parse` function of `Env`. Its result is assumed to have distinct keys per object, as Python's dicts do. JSON numbers are integers: floats are not modelled.
- Python booleans stand for 0 and 1 wherever they meet a comparison or a stock. A boolean `count` therefore appears as 0 or 1 in the row, where pandas would hold `False` or `True`.
- PyJson.Repr: the escaping `repr` applies to quotes and unprintable characters is not modelled.
- Text.Fold: IGNORECASE folding covers ASCII letters and the four non-ASCII characters Python's regular-expression engine equates with one (ſ, ı, İ, K). Other Unicode case pairs are not modelled, and none of them can match the letters of the tag pattern.
- Python's recursion limit on deeply nested payloads in `find_models` is not modelled.
- A crash is modelled as ending the scan, with no partial result. Which exception the interface then displays is not modelled.

=== FILE: dedup.dfy ===
/** The `unique` step of `run_scraper`: a dict comprehension keyed on the
    rendered string `f"{id}-{bodyId}"`, skipping records whose name is falsy,
    whose `.values()` are then iterated. As for any Python dict, a key keeps
    the position of its first insertion and the value of its last. */
module Dedup {

  import opened Results
  import opened Text
  import opened PyJson
  import opened Discovery

  /** The dict key of a record. It is a rendered string, not a pair. */
  function Key(m: ModelRef): string {
    Render(m.id) + "-" + Render(m.bodyId)
  }

  /** The comprehension's filter `if m['name']`. */
  predicate Kept(m: ModelRef) {
    Truthy(m.name)
  }

  /** One dict item: the rendered key and the record stored under it. */
  datatype Entry = Entry(key: string, model: ModelRef)

  predicate KeyIn(d: seq<Entry>, k: string) {
    exists i :: 0 <= i < |d| && d[i].key == k
  }

  predicate DistinctKeys(d: seq<Entry>) {
    forall i, j :: 0 <= i < j < |d| ==> d[i].key != d[j].key
  }

  /** `d[e.key] = e.model` on a dict represented by its items in insertion
      order: an existing key is overwritten in place, a new key goes to the
      end. */
  function Put(d: seq<Entry>, e: Entry): seq<Entry>
    decreases |d|
  {
    if d == [] then [e]
    else if d[0].key == e.key then [e] + d[1..]
    else [d[0]] + Put(d[1..], e)
  }

  /** The dict the comprehension builds, one input record at a time from the
      left; records with a falsy name are skipped. */
  function Items(ms: seq<ModelRef>): seq<Entry>
    decreases |ms|
  {
    if ms == [] then []
    else
      var d := Items(ms[..|ms| - 1]);
      var m := ms[|ms| - 1];
      if Kept(m) then Put(d, Entry(Key(m), m)) else d
  }

  /** `.values()` of a dict. */
  function ValuesOf(d: seq<Entry>): (vs: seq<ModelRef>)
    ensures |vs| == |d|
    ensures forall i :: 0 <= i < |d| ==> vs[i] == d[i].model
  {
    seq(|d|, i requires 0 <= i < |d| => d[i].model)
  }

  /** The deduplicated models: the records with a truthy name, one per
      rendered key, in the order the dict comprehension leaves them. */
  function Unique(ms: seq<ModelRef>): seq<ModelRef> {
    ValuesOf(Items(ms))
  }

  // ---------------------------------------------------------------------------
  // Reference definitions over the input list
  // ---------------------------------------------------------------------------

  /** The last kept record of `ms` with key `k`. */
  function LastKept(ms: seq<ModelRef>, k: string): Option<ModelRef>
    decreases |ms|
  {
    if ms == [] then None
    else
      var m := ms[|ms| - 1];
      if Kept(m) && Key(m) == k then Some(m) else LastKept(ms[..|ms| - 1], k)
  }

  /** The index of the first kept record of `ms` with key `k`, or |ms|. */
  function FirstKept(ms: seq<ModelRef>, k: string): nat
    decreases |ms|
  {
    if ms == [] then 0
    else if Kept(ms[0]) && Key(ms[0]) == k then 0
    else 1 + FirstKept(ms[1..], k)
  }

  // ---------------------------------------------------------------------------
  // Lemmas
  // ---------------------------------------------------------------------------

  /** Assigning into the dict: an existing key is replaced where it stands and
      the length is unchanged; a new key is appended. */
  lemma {:induction false} PutSpec(d: seq<Entry>, e: Entry)
    requires DistinctKeys(d)
    ensures KeyIn(d, e.key) ==> |Put(d, e)| == |d|
    ensures KeyIn(d, e.key) ==>
      forall i :: 0 <= i < |d| ==> Put(d, e)[i] == (if d[i].key == e.key then e else d[i])
    ensures !KeyIn(d, e.key) ==> Put(d, e) == d + [e]
    decreases |d|
  {
    if d != [] && d[0].key != e.key {
      var tail := d[1..];
      assert DistinctKeys(tail) by {
        forall i, j | 0 <= i < j < |tail|
          ensures tail[i].key != tail[j].key
        {
          assert tail[i] == d[i + 1] && tail[j] == d[j + 1];
        }
      }
      PutSpec(tail, e);
      assert KeyIn(d, e.key) <==> KeyIn(tail, e.key) by {
        if KeyIn(d, e.key) {
          var i :| 0 <= i < |d| && d[i].key == e.key;
          assert tail[i - 1] == d[i];
        }
        if KeyIn(tail, e.key) {
          var i :| 0 <= i < |tail| && tail[i].key == e.key;
          assert d[i + 1] == tail[i];
        }
      }
      if KeyIn(d, e.key) {
        forall i | 0 <= i < |d|
          ensures Put(d, e)[i] == (if d[i].key == e.key then e else d[i])
        {
          if i > 0 {
            assert Put(d, e)[i] == Put(tail, e)[i - 1];
            assert tail[i - 1] == d[i];
          }
        }
      } else {
        assert [d[0]] + (tail + [e]) == d + [e];
      }
    } else if d != [] {
      assert KeyIn(d, e.key);
    }
  }

  /** Assigning keeps the keys distinct and adds exactly the assigned key. */
  lemma PutKeys(d: seq<Entry>, e: Entry)
    requires DistinctKeys(d)
    ensures DistinctKeys(Put(d, e))
    ensures forall k :: KeyIn(Put(d, e), k) <==> KeyIn(d, k) || k == e.key
  {
    PutSpec(d, e);
    if KeyIn(d, e.key) {
      SameKeys(d, Put(d, e), e.key);
    } else {
      AppendKey(d, e);
    }
  }

  lemma SameKeys(d: seq<Entry>, r: seq<Entry>, k0: string)
    requires DistinctKeys(d) && KeyIn(d, k0) && |r| == |d|
    requires forall i :: 0 <= i < |d| ==> r[i].key == d[i].key
    ensures DistinctKeys(r)
    ensures forall k :: KeyIn(r, k) <==> KeyIn(d, k) || k == k0
  {
    forall k
      ensures KeyIn(r, k) <==> KeyIn(d, k) || k == k0
    {
      if KeyIn(d, k) {
        var i :| 0 <= i < |d| && d[i].key == k;
        assert r[i].key == k;
      }
    }
  }

  lemma AppendKey(d: seq<Entry>, e: Entry)
    requires DistinctKeys(d) && !KeyIn(d, e.key)
    ensures DistinctKeys(d + [e])
    ensures forall k :: KeyIn(d + [e], k) <==> KeyIn(d, k) || k == e.key
  {
    var r := d + [e];
    assert r[|d|] == e;
    forall k
      ensures KeyIn(r, k) <==> KeyIn(d, k) || k == e.key
    {
      if KeyIn(d, k) {
        var i :| 0 <= i < |d| && d[i].key == k;
        assert r[i] == d[i];
      }
      if KeyIn(r, k) && k != e.key {
        var i :| 0 <= i < |r| && r[i].key == k;
        assert i < |d| && r[i] == d[i];
      }
    }
    forall i, j | 0 <= i < j < |r|
      ensures r[i].key != r[j].key
    {
      assert r[i] == d[i];
      if j < |d| {
        assert r[j] == d[j];
      }
    }
  }

  /** Scanning one more element leaves an earlier first occurrence alone. */
  lemma {:induction false} FirstKeptSnoc(ms: seq<ModelRef>, m: ModelRef, k: string)
    ensures FirstKept(ms, k) <= |ms|
    ensures FirstKept(ms + [m], k) ==
      if FirstKept(ms, k) < |ms| then FirstKept(ms, k)
      else if Kept(m) && Key(m) == k then |ms|
      else |ms| + 1
    decreases |ms|
  {
    if ms != [] {
      assert (ms + [m])[1..] == ms[1..] + [m];
      FirstKeptSnoc(ms[1..], m, k);
    }
  }

  /** There is a last kept record with a key exactly when there is a first. */
  lemma {:induction false} LastKeptIffFirstKept(ms: seq<ModelRef>, k: string)
    ensures LastKept(ms, k).Some? <==> FirstKept(ms, k) < |ms|
    decreases |ms|
  {
    if ms != [] {
      var init := ms[..|ms| - 1];
      var m := ms[|ms| - 1];
      LastKeptIffFirstKept(init, k);
      FirstKeptSnoc(init, m, k);
      assert init + [m] == ms;
    }
  }

  /** The dict the comprehension builds: keys are distinct, every item is
      stored under its own record's key, every stored record has a truthy name
      and is the LAST kept input record with that key, and the keys present
      are exactly the keys of the kept input records. */
  lemma {:induction false} ItemsContents(ms: seq<ModelRef>)
    ensures DistinctKeys(Items(ms))
    ensures forall i :: 0 <= i < |Items(ms)| ==>
      && Items(ms)[i].key == Key(Items(ms)[i].model)
      && Kept(Items(ms)[i].model)
      && LastKept(ms, Items(ms)[i].key) == Some(Items(ms)[i].model)
    ensures forall k :: KeyIn(Items(ms), k) <==> LastKept(ms, k).Some?
    decreases |ms|
  {
    if ms != [] {
      var init := ms[..|ms| - 1];
      var m := ms[|ms| - 1];
      var d := Items(init);
      ItemsContents(init);
      assert ms[..|ms| - 1] == init;
      if Kept(m) {
        var e := Entry(Key(m), m);
        PutSpec(d, e);
        PutKeys(d, e);
        var r := Put(d, e);
        assert Items(ms) == r;
        forall i | 0 <= i < |r|
          ensures r[i].key == Key(r[i].model) && Kept(r[i].model)
          ensures LastKept(ms, r[i].key) == Some(r[i].model)
        {
          if r[i] != e {
            assert i < |d| && r[i] == d[i];
            assert LastKept(ms, r[i].key) == LastKept(init, d[i].key);
          }
        }
        forall k
          ensures KeyIn(r, k) <==> LastKept(ms, k).Some?
        {
          assert LastKept(ms, k) == if k == e.key then Some(m) else LastKept(init, k);
        }
      } else {
        assert Items(ms) == d;
        forall k
          ensures LastKept(ms, k) == LastKept(init, k)
        {
        }
      }
    }
  }

  /** The items appear in the order in which their keys first occur among the
      kept records of `ms`. */
  predicate OrderedBy(d: seq<Entry>, ms: seq<ModelRef>) {
    forall i, j :: 0 <= i < j < |d| ==> FirstKept(ms, d[i].key) < FirstKept(ms, d[j].key)
  }

  lemma OrderedSnoc(d: seq<Entry>, init: seq<ModelRef>, m: ModelRef)
    requires OrderedBy(d, init)
    requires forall i :: 0 <= i < |d| ==> FirstKept(init, d[i].key) < |init|
    ensures OrderedBy(d, init + [m])
    ensures forall i :: 0 <= i < |d| ==> FirstKept(init + [m], d[i].key) < |init|
  {
    forall i | 0 <= i < |d|
      ensures FirstKept(init + [m], d[i].key) == FirstKept(init, d[i].key)
    {
      FirstKeptSnoc(init, m, d[i].key);
    }
  }

  lemma OrderedSameKeys(d: seq<Entry>, r: seq<Entry>, ms: seq<ModelRef>)
    requires OrderedBy(d, ms) && |r| == |d|
    requires forall i :: 0 <= i < |d| ==> r[i].key == d[i].key
    ensures OrderedBy(r, ms)
  {
  }

  lemma OrderedAppend(d: seq<Entry>, e: Entry, ms: seq<ModelRef>)
    requires OrderedBy(d, ms)
    requires forall i :: 0 <= i < |d| ==> FirstKept(ms, d[i].key) < FirstKept(ms, e.key)
    ensures OrderedBy(d + [e], ms)
  {
    var r := d + [e];
    forall i, j | 0 <= i < j < |r|
      ensures FirstKept(ms, r[i].key) < FirstKept(ms, r[j].key)
    {
      assert r[i] == d[i];
    }
  }

  lemma {:induction false} ItemsOrder(ms: seq<ModelRef>)
    ensures OrderedBy(Items(ms), ms)
    decreases |ms|
  {
    if ms != [] {
      var init := ms[..|ms| - 1];
      var m := ms[|ms| - 1];
      assert init + [m] == ms;
      var d := Items(init);
      ItemsOrder(init);
      ItemsContents(init);
      forall i | 0 <= i < |d|
        ensures FirstKept(init, d[i].key) < |init|
      {
        LastKeptIffFirstKept(init, d[i].key);
      }
      OrderedSnoc(d, init, m);
      if Kept(m) {
        var e := Entry(Key(m), m);
        PutSpec(d, e);
        if KeyIn(d, e.key) {
          OrderedSameKeys(d, Put(d, e), ms);
        } else {
          LastKeptIffFirstKept(init, e.key);
          FirstKeptSnoc(init, m, e.key);
          OrderedAppend(d, e, ms);
        }
      }
    }
  }

  /** What `unique` holds: no two records share a key; every record has a
      truthy name; each is the LAST kept input record with its key; every key
      of a kept input record is represented; and the records come in the order
      in which their keys first occur. */
  lemma UniqueSpec(ms: seq<ModelRef>)
    ensures forall i, j :: 0 <= i < j < |Unique(ms)| ==> Key(Unique(ms)[i]) != Key(Unique(ms)[j])
    ensures forall i :: 0 <= i < |Unique(ms)| ==> Kept(Unique(ms)[i])
    ensures forall i :: 0 <= i < |Unique(ms)| ==> LastKept(ms, Key(Unique(ms)[i])) == Some(Unique(ms)[i])
    ensures forall k :: LastKept(ms, k).Some? <==> exists i :: 0 <= i < |Unique(ms)| && Key(Unique(ms)[i]) == k
    ensures forall i, j :: 0 <= i < j < |Unique(ms)| ==>
      FirstKept(ms, Key(Unique(ms)[i])) < FirstKept(ms, Key(Unique(ms)[j]))
  {
    ItemsContents(ms);
    ItemsOrder(ms);
    var d := Items(ms);
    var u := Unique(ms);
    assert forall i :: 0 <= i < |u| ==> Key(u[i]) == d[i].key;
    forall k
      ensures LastKept(ms, k).Some? <==> exists i :: 0 <= i < |u| && Key(u[i]) == k
    {
      if KeyIn(d, k) {
        var i :| 0 <= i < |d| && d[i].key == k;
        assert Key(u[i]) == k;
      }
    }
  }

  // ---------------------------------------------------------------------------
  // The key is a rendered string
  // ---------------------------------------------------------------------------

  /** When neither rendered id contains a dash, equal keys mean equal rendered
      ids: the key then identifies the pair. */
  lemma KeyInjectiveWithoutDash(a: ModelRef, b: ModelRef)
    requires '-' !in Render(a.id) && '-' !in Render(b.id)
    requires Key(a) == Key(b)
    ensures Render(a.id) == Render(b.id) && Render(a.bodyId) == Render(b.bodyId)
  {
    SplitAtJoin(Render(a.id), '-', Render(a.bodyId));
    SplitAtJoin(Render(b.id), '-', Render(b.bodyId));
  }

  /** Two different (id, bodyId) pairs can share a key: ("1-2", "3") and
      ("1", "2-3") both render as "1-2-3". */
  lemma DashedIdsCollide(n1: Json, n2: Json)
    ensures Key(ModelRef(JStr("1-2"), JStr("3"), n1)) == Key(ModelRef(JStr("1"), JStr("2-3"), n2))
  {
  }

  /** A numeric id and its decimal string render alike, so they collide too. */
  lemma NumberAndStringIdsCollide(body: Json, n1: Json, n2: Json)
    ensures Key(ModelRef(JNum(7), body, n1)) == Key(ModelRef(JStr("7"), body, n2))
  {
  }

  /** Colliding records are merged: only the later one survives. */
  lemma CollidingRecordsMerge(a: ModelRef, b: ModelRef)
    requires Kept(a) && Kept(b) && Key(a) == Key(b)
    ensures Unique([a, b]) == [b]
  {
    assert [a, b][..1] == [a];
    assert [a][..0] == [];
    assert Items([a]) == [Entry(Key(a), a)];
    assert Items([a, b]) == [Entry(Key(b), b)];
  }
}

=== FILE: discovery.dfy ===
/** Model discovery in the `__NEXT_DATA__` payload of a storefront home page:
    the recursive `find_models` walk of `run_scraper`. */
module Discovery {

  import opened PyJson

  /** One entry of the `models` list: the model's `id`, the body style's `id`
      and the model's `title`, each `None` (JNull) when the key is missing. */
  datatype ModelRef = ModelRef(id: Json, bodyId: Json, name: Json)

  /** A dict with both a `model` and a `bodyStyle` key whose values are both
      dicts: the nodes the walk records. */
  predicate IsModelNode(j: Json) {
    && HasKey(j, "model")
    && HasKey(j, "bodyStyle")
    && ModelValue(j).JObject?
    && BodyStyleValue(j).JObject?
  }

  function ModelValue(j: Json): Json
    requires j.JObject?
  {
    GetOr(j.members, "model", JNull)
  }

  function BodyStyleValue(j: Json): Json
    requires j.JObject?
  {
    GetOr(j.members, "bodyStyle", JNull)
  }

  /** The record appended for a model node (`m.get('id')`, `b.get('id')`,
      `m.get('title')`). */
  function RefOf(j: Json): ModelRef
    requires IsModelNode(j)
  {
    var m := ModelValue(j);
    var b := BodyStyleValue(j);
    ModelRef(GetOr(m.members, "id", JNull), GetOr(b.members, "id", JNull), GetOr(m.members, "title", JNull))
  }

  /** What visiting `j` itself appends, before anything below it. */
  function Own(j: Json): seq<ModelRef> {
    if IsModelNode(j) then [RefOf(j)] else []
  }

  /** `find_models(obj)`: the records appended to `models`, in order. A dict
      first records itself, then walks every one of its values (the `model`
      and `bodyStyle` values included); a list walks its items; a scalar adds
      nothing. */
  function FindModels(j: Json): seq<ModelRef>
    decreases j
  {
    match j
    case JObject(ms) => Own(j) + FindInMembers(ms)
    case JArray(items) => FindInItems(items)
    case _ => []
  }

  function FindInItems(items: seq<Json>): seq<ModelRef>
    decreases items
  {
    if items == [] then [] else FindModels(items[0]) + FindInItems(items[1..])
  }

  function FindInMembers(ms: seq<Member>): seq<ModelRef>
    decreases ms
  {
    if ms == [] then [] else FindModels(ms[0].value) + FindInMembers(ms[1..])
  }

  // ---------------------------------------------------------------------------
  // Reference definitions: which values lie inside a document, and a pre-order
  // listing of them.
  // ---------------------------------------------------------------------------

  /** `n` is `j` or lies, at any depth, below it. */
  predicate Within(n: Json, j: Json)
    decreases j, 1
  {
    n == j || Below(n, j)
  }

  /** `n` lies strictly below `j`: inside one of its items or values. */
  predicate Below(n: Json, j: Json)
    decreases j, 0
  {
    match j
    case JObject(ms) => WithinMembers(n, ms)
    case JArray(items) => WithinItems(n, items)
    case _ => false
  }

  predicate WithinItems(n: Json, items: seq<Json>)
    decreases items
  {
    items != [] && (Within(n, items[0]) || WithinItems(n, items[1..]))
  }

  predicate WithinMembers(n: Json, ms: seq<Member>)
    decreases ms
  {
    ms != [] && (Within(n, ms[0].value) || WithinMembers(n, ms[1..]))
  }

  /** All values of the document, each one before the values below it. */
  function PreOrder(j: Json): seq<Json>
    decreases j
  {
    match j
    case JObject(ms) => [j] + PreOrderMembers(ms)
    case JArray(items) => [j] + PreOrderItems(items)
    case _ => [j]
  }

  function PreOrderItems(items: seq<Json>): seq<Json>
    decreases items
  {
    if items == [] then [] else PreOrder(items[0]) + PreOrderItems(items[1..])
  }

  function PreOrderMembers(ms: seq<Member>): seq<Json>
    decreases ms
  {
    if ms == [] then [] else PreOrder(ms[0].value) + PreOrderMembers(ms[1..])
  }

  /** The record of every model node of `ns`, in the order of `ns`. */
  function Collect(ns: seq<Json>): seq<ModelRef>
    decreases |ns|
  {
    if ns == [] then [] else Own(ns[0]) + Collect(ns[1..])
  }

  // ---------------------------------------------------------------------------
  // The walk is the pre-order listing filtered to model nodes
  // ---------------------------------------------------------------------------

  lemma {:induction false} CollectAppend(a: seq<Json>, b: seq<Json>)
    ensures Collect(a + b) == Collect(a) + Collect(b)
    decreases |a|
  {
    if a == [] {
      assert a + b == b;
    } else {
      assert (a + b)[1..] == a[1..] + b;
      CollectAppend(a[1..], b);
    }
  }

  lemma CollectCons(n: Json, rest: seq<Json>)
    ensures Collect([n] + rest) == Own(n) + Collect(rest)
  {
    assert ([n] + rest)[1..] == rest;
  }

  /** The walk lists the records of the model nodes of the document in
      pre-order: it is the pre-order listing filtered to model nodes. */
  lemma {:induction false} FindModelsIsPreOrder(j: Json)
    ensures FindModels(j) == Collect(PreOrder(j))
    decreases j
  {
    match j
    case JObject(ms) =>
      FindInMembersIsPreOrder(ms);
      CollectCons(j, PreOrderMembers(ms));
    case JArray(items) =>
      FindInItemsIsPreOrder(items);
      CollectCons(j, PreOrderItems(items));
    case _ =>
      CollectCons(j, []);
  }

  lemma {:induction false} FindInItemsIsPreOrder(items: seq<Json>)
    ensures FindInItems(items) == Collect(PreOrderItems(items))
    decreases items
  {
    if items != [] {
      FindModelsIsPreOrder(items[0]);
      FindInItemsIsPreOrder(items[1..]);
      CollectAppend(PreOrder(items[0]), PreOrderItems(items[1..]));
    }
  }

  lemma {:induction false} FindInMembersIsPreOrder(ms: seq<Member>)
    ensures FindInMembers(ms) == Collect(PreOrderMembers(ms))
    decreases ms
  {
    if ms != [] {
      FindModelsIsPreOrder(ms[0].value);
      FindInMembersIsPreOrder(ms[1..]);
      CollectAppend(PreOrder(ms[0].value), PreOrderMembers(ms[1..]));
    }
  }

  // ---------------------------------------------------------------------------
  // The walk finds exactly the model nodes at any depth
  // ---------------------------------------------------------------------------

  /** The pre-order listing holds exactly the values inside the document. */
  lemma {:induction false} PreOrderIsWithin(n: Json, j: Json)
    ensures n in PreOrder(j) <==> Within(n, j)
    decreases j
  {
    match j
    case JObject(ms) => PreOrderMembersIsWithin(n, ms);
    case JArray(items) => PreOrderItemsIsWithin(n, items);
    case _ =>
  }

  lemma {:induction false} PreOrderItemsIsWithin(n: Json, items: seq<Json>)
    ensures n in PreOrderItems(items) <==> WithinItems(n, items)
    decreases items
  {
    if items != [] {
      PreOrderIsWithin(n, items[0]);
      PreOrderItemsIsWithin(n, items[1..]);
    }
  }

  lemma {:induction false} PreOrderMembersIsWithin(n: Json, ms: seq<Member>)
    ensures n in PreOrderMembers(ms) <==> WithinMembers(n, ms)
    decreases ms
  {
    if ms != [] {
      PreOrderIsWithin(n, ms[0].value);
      PreOrderMembersIsWithin(n, ms[1..]);
    }
  }

  lemma {:induction false} CollectMembers(ns: seq<Json>, r: ModelRef)
    ensures r in Collect(ns) <==> exists n :: n in ns && IsModelNode(n) && RefOf(n) == r
    decreases |ns|
  {
    if ns != [] {
      CollectMembers(ns[1..], r);
      assert forall n :: n in ns <==> n == ns[0] || n in ns[1..];
    }
  }

  /** The walk records exactly the model nodes found at any depth: a record is
      in the result if and only if some model node inside the document yields
      it. */
  lemma FindModelsExactly(j: Json, r: ModelRef)
    ensures r in FindModels(j) <==> exists n :: Within(n, j) && IsModelNode(n) && RefOf(n) == r
  {
    FindModelsIsPreOrder(j);
    CollectMembers(PreOrder(j), r);
    forall n
      ensures n in PreOrder(j) <==> Within(n, j)
    {
      PreOrderIsWithin(n, j);
    }
  }

  // ---------------------------------------------------------------------------
  // Nesting order
  // ---------------------------------------------------------------------------

  /** `small` occurs in `big` starting at index `o`. */
  ghost predicate IsSegmentAt(big: seq<ModelRef>, small: seq<ModelRef>, o: nat) {
    && o + |small| <= |big|
    && forall i {:trigger small[i]} :: 0 <= i < |small| ==> big[o + i] == small[i]
  }

  lemma SegmentInSuffix(a: seq<ModelRef>, b: seq<ModelRef>, small: seq<ModelRef>, o: nat)
    requires IsSegmentAt(b, small, o)
    ensures IsSegmentAt(a + b, small, |a| + o)
  {
  }

  lemma SegmentInPrefix(a: seq<ModelRef>, b: seq<ModelRef>, small: seq<ModelRef>, o: nat)
    requires IsSegmentAt(a, small, o)
    ensures IsSegmentAt(a + b, small, o)
  {
  }

  lemma SegmentTransitive(big: seq<ModelRef>, mid: seq<ModelRef>, small: seq<ModelRef>, o1: nat, o2: nat)
    requires IsSegmentAt(big, mid, o1) && IsSegmentAt(mid, small, o2)
    ensures IsSegmentAt(big, small, o1 + o2)
  {
    forall i | 0 <= i < |small|
      ensures big[o1 + o2 + i] == small[i]
    {
      assert big[o1 + (o2 + i)] == mid[o2 + i];
    }
  }

  lemma SegmentHead(big: seq<ModelRef>, small: seq<ModelRef>, o: nat)
    requires IsSegmentAt(big, small, o) && |small| > 0
    ensures o < |big| && big[o] == small[0]
  {
    assert big[o + 0] == small[0];
  }

  /** Whatever the walk records below a node `n` forms one contiguous block of
      what it records for the whole document. */
  lemma {:induction false} WithinIsSegment(n: Json, j: Json) returns (o: nat)
    requires Within(n, j)
    ensures IsSegmentAt(FindModels(j), FindModels(n), o)
    decreases j, 1
  {
    if n == j {
      o := 0;
    } else {
      o := BelowIsSegment(n, j);
    }
  }

  lemma {:induction false} BelowIsSegment(n: Json, j: Json) returns (o: nat)
    requires Below(n, j)
    ensures IsSegmentAt(FindModels(j), FindModels(n), o)
    decreases j, 0
  {
    match j
    case JObject(ms) =>
      var o' := WithinMembersIsSegment(n, ms);
      ghost var own, rest := Own(j), FindInMembers(ms);
      assert FindModels(j) == own + rest;
      SegmentInSuffix(own, rest, FindModels(n), o');
      o := |own| + o';
    case JArray(items) =>
      o := WithinItemsIsSegment(n, items);
  }

  lemma {:induction false} WithinItemsIsSegment(n: Json, items: seq<Json>) returns (o: nat)
    requires WithinItems(n, items)
    ensures IsSegmentAt(FindInItems(items), FindModels(n), o)
    decreases items
  {
    ghost var head, tail := FindModels(items[0]), FindInItems(items[1..]);
    if Within(n, items[0]) {
      o := WithinIsSegment(n, items[0]);
      SegmentInPrefix(head, tail, FindModels(n), o);
    } else {
      var o' := WithinItemsIsSegment(n, items[1..]);
      SegmentInSuffix(head, tail, FindModels(n), o');
      o := |head| + o';
    }
  }

  lemma {:induction false} WithinMembersIsSegment(n: Json, ms: seq<Member>) returns (o: nat)
    requires WithinMembers(n, ms)
    ensures IsSegmentAt(FindInMembers(ms), FindModels(n), o)
    decreases ms
  {
    ghost var head, tail := FindModels(ms[0].value), FindInMembers(ms[1..]);
    if Within(n, ms[0].value) {
      o := WithinIsSegment(n, ms[0].value);
      SegmentInPrefix(head, tail, FindModels(n), o);
    } else {
      var o' := WithinMembersIsSegment(n, ms[1..]);
      SegmentInSuffix(head, tail, FindModels(n), o');
      o := |head| + o';
    }
  }

  /** Within one model node, its own record comes first and every record
      found below it follows. */
  lemma NodeBeforeNested(n: Json, d: Json) returns (k: nat)
    requires IsModelNode(n) && Below(d, n)
    ensures |FindModels(n)| > 0 && FindModels(n)[0] == RefOf(n)
    ensures k >= 1 && IsSegmentAt(FindModels(n), FindModels(d), k)
  {
    var k' := WithinMembersIsSegment(d, n.members);
    ghost var rest := FindInMembers(n.members);
    assert FindModels(n) == [RefOf(n)] + rest;
    SegmentInSuffix([RefOf(n)], rest, FindModels(d), k');
    k := 1 + k';
  }

  /** Pre-order: a model node's record comes before every record found below
      it, at any depth of the document. */
  lemma ParentBeforeNested(j: Json, n: Json, d: Json) returns (o: nat, od: nat)
    requires Within(n, j) && IsModelNode(n) && Below(d, n)
    ensures o < |FindModels(j)| && FindModels(j)[o] == RefOf(n)
    ensures IsSegmentAt(FindModels(j), FindModels(d), od)
    ensures o < od
  {
    o := WithinIsSegment(n, j);
    var k := NodeBeforeNested(n, d);
    ghost var fj, fn, fd := FindModels(j), FindModels(n), FindModels(d);
    SegmentTransitive(fj, fn, fd, o, k);
    SegmentHead(fj, fn, o);
    od := o + k;
  }

  lemma {:induction false} WithinOneMember(d: Json, ms: seq<Member>, i: nat)
    requires i < |ms| && Within(d, ms[i].value)
    ensures WithinMembers(d, ms)
    decreases i
  {
    if i > 0 {
      WithinOneMember(d, ms[1..], i - 1);
    }
  }

  /** The walk also descends into the `model` and `bodyStyle` dicts of a model
      node, so a model node nested in them is recorded after it. */
  lemma NestedInModelValueFollows(j: Json, n: Json, d: Json) returns (o: nat, od: nat)
    requires Within(n, j) && IsModelNode(n)
    requires Within(d, ModelValue(n)) || Within(d, BodyStyleValue(n))
    ensures o < |FindModels(j)| && FindModels(j)[o] == RefOf(n)
    ensures IsSegmentAt(FindModels(j), FindModels(d), od)
    ensures o < od
  {
    var k := if Within(d, ModelValue(n)) then "model" else "bodyStyle";
    var c := GetOr(n.members, k, JNull);
    assert Within(d, c);
    LookupSpec(n.members, k);
    var i :| 0 <= i < |n.members| && n.members[i] == Member(k, c);
    WithinOneMember(d, n.members, i);
    o, od := ParentBeforeNested(j, n, d);
  }
}

=== FILE: legacy.dfy ===
/** Stock figures read off the HTML of a legacy storefront: tagged elements
    (Germany), price proximity (Portugal), or the offer catalogue of a JSON-LD
    block with an engine-keyword fallback (everywhere else). */
module Legacy {

  import opened Results
  import opened Text
  import opened PyJson
  import opened Records
  import opened Selection

  /** The model names searched on every legacy page, in order. */
  const Models: seq<string> := ["DS 3", "DS 4", "DS 7", "DS 9"]

  datatype Strategy = TagAttribute | PriceProximity | Generic

  function StrategyFor(country: string): Strategy {
    if country == "ALLEMAGNE" then TagAttribute
    else if country == "PORTUGAL" then PriceProximity
    else Generic
  }

  // ---------------------------------------------------------------------------
  // Tagged elements: data-model-text=['"]<model>['"], case-insensitive
  // ---------------------------------------------------------------------------

  const AttrPrefix: string := "data-model-text="

  /** One position of the tag pattern: a literal character, or the class of
      the two quote characters. */
  datatype Atom = Lit(c: char) | Quote

  function TagLength(model: string): nat {
    |AttrPrefix| + |model| + 2
  }

  function PatternAt(model: string, t: nat): Atom
    requires t < TagLength(model)
  {
    if t < |AttrPrefix| then Lit(AttrPrefix[t])
    else if t == |AttrPrefix| then Quote
    else if t < |AttrPrefix| + 1 + |model| then Lit(model[t - |AttrPrefix| - 1])
    else Quote
  }

  predicate IsQuote(x: char) {
    x == '\'' || x == '"'
  }

  /** A text character matches a pattern position under IGNORECASE. */
  predicate CharMatches(x: char, a: Atom) {
    match a
    case Lit(c) => Fold(x) == Fold(c)
    case Quote => IsQuote(x)
  }

  /** The tag pattern matches the text starting at position `i`. */
  predicate TagAt(html: string, i: nat, model: string) {
    i + TagLength(model) <= |html| && MatchesFrom(html, i, model, 0)
  }

  /** Pattern positions `t` onwards match the text starting at `i`. */
  predicate MatchesFrom(html: string, i: nat, model: string, t: nat)
    requires i + TagLength(model) <= |html|
    decreases TagLength(model) - t
  {
    t >= TagLength(model) ||
    (CharMatches(html[i + t], PatternAt(model, t)) && MatchesFrom(html, i, model, t + 1))
  }

  lemma {:induction false} MatchesFromChar(html: string, i: nat, model: string, s: nat, t: nat)
    requires i + TagLength(model) <= |html| && MatchesFrom(html, i, model, s) && s <= t < TagLength(model)
    ensures CharMatches(html[i + t], PatternAt(model, t))
    decreases t - s
  {
    if s < t {
      MatchesFromChar(html, i, model, s + 1, t);
    }
  }

  lemma {:induction false} MatchesFromAll(html: string, i: nat, model: string, s: nat)
    requires i + TagLength(model) <= |html|
    requires forall t :: s <= t < TagLength(model) ==> CharMatches(html[i + t], PatternAt(model, t))
    ensures MatchesFrom(html, i, model, s)
    decreases TagLength(model) - s
  {
    if s < TagLength(model) {
      MatchesFromAll(html, i, model, s + 1);
    }
  }

  /** `len(re.findall(...))`: the scan tries each position from the left and
      resumes after the end of every match it counts. */
  function TagCountFrom(html: string, model: string, i: nat): nat
    decreases |html| - i
  {
    if i + TagLength(model) > |html| then 0
    else if TagAt(html, i, model) then 1 + TagCountFrom(html, model, i + TagLength(model))
    else TagCountFrom(html, model, i + 1)
  }

  function TagCount(html: string, model: string): nat {
    TagCountFrom(html, model, 0)
  }

  /** The number of positions at or after `i` where the pattern matches. */
  function Occurrences(html: string, model: string, i: nat): nat
    decreases |html| - i
  {
    if i + TagLength(model) > |html| then 0
    else (if TagAt(html, i, model) then 1 else 0) + Occurrences(html, model, i + 1)
  }

  /** Some character can match both pattern positions. */
  predicate Compatible(a: Atom, b: Atom) {
    match (a, b)
    case (Lit(c1), Lit(c2)) => Fold(c1) == Fold(c2)
    case (Lit(c), Quote) => IsQuote(Fold(c))
    case (Quote, Lit(c)) => IsQuote(Fold(c))
    case (Quote, Quote) => true
  }

  /** Shifting the pattern by `d` puts two incompatible positions on top of
      each other, so no two matches can start `d` apart. */
  predicate Clash(model: string, d: nat) {
    exists t :: 0 <= t < TagLength(model) && ClashAt(model, d, t)
  }

  /** Positions `d + t` and `t` of the pattern admit no common character. */
  predicate ClashAt(model: string, d: nat, t: nat) {
    d + t < TagLength(model) && !Compatible(PatternAt(model, d + t), PatternAt(model, t))
  }

  predicate SelfOverlapFree(model: string) {
    forall d :: 0 < d < TagLength(model) ==> Clash(model, d)
  }

  lemma CharMatchesBoth(x: char, a: Atom, b: Atom)
    requires CharMatches(x, a) && CharMatches(x, b)
    ensures Compatible(a, b)
  {
  }

  lemma MatchesAtShift(html: string, model: string, i: nat, d: nat, t: nat)
    requires TagAt(html, i, model) && TagAt(html, i + d, model) && t + d < TagLength(model)
    ensures Compatible(PatternAt(model, d + t), PatternAt(model, t))
  {
    var x := html[i + d + t];
    MatchesFromChar(html, i, model, 0, d + t);
    assert html[i + (d + t)] == x;
    MatchesFromChar(html, i + d, model, 0, t);
    CharMatchesBoth(x, PatternAt(model, d + t), PatternAt(model, t));
  }

  /** Two matches of an overlap-free pattern never overlap. */
  lemma NoOverlap(html: string, model: string, i: nat, d: nat)
    requires SelfOverlapFree(model) && TagAt(html, i, model) && 0 < d < TagLength(model)
    ensures !TagAt(html, i + d, model)
  {
    if TagAt(html, i + d, model) {
      var t := ClashWitness(model, d);
      MatchesAtShift(html, model, i, d, t);
    }
  }

  lemma ClashWitness(model: string, d: nat) returns (t: nat)
    requires SelfOverlapFree(model) && 0 < d < TagLength(model)
    ensures ClashAt(model, d, t)
  {
    assert Clash(model, d);
    t :| ClashAt(model, d, t);
  }

  /** After a match at `i`, the positions it covers hold no further match. */
  lemma {:induction false} OccurrencesSkip(html: string, model: string, i: nat, j: nat)
    requires SelfOverlapFree(model) && TagAt(html, i, model) && 0 < j <= TagLength(model)
    ensures Occurrences(html, model, i + j) == Occurrences(html, model, i + TagLength(model))
    decreases TagLength(model) - j
  {
    if j < TagLength(model) {
      NoOverlap(html, model, i, j);
      OccurrencesSkip(html, model, i, j + 1);
    }
  }

  /** For an overlap-free pattern the left-to-right scan counts every
      position where the pattern matches. */
  lemma {:induction false} TagCountIsOccurrences(html: string, model: string, i: nat)
    requires SelfOverlapFree(model)
    ensures TagCountFrom(html, model, i) == Occurrences(html, model, i)
    decreases |html| - i
  {
    if i + TagLength(model) <= |html| {
      if TagAt(html, i, model) {
        TagCountIsOccurrences(html, model, i + TagLength(model));
        OccurrencesSkip(html, model, i, 1);
      } else {
        TagCountIsOccurrences(html, model, i + 1);
      }
    }
  }

  /** A pattern built around a name of the shape "DS n" cannot overlap
      itself. */
  lemma DsNameOverlapFree(model: string)
    requires |model| == 4 && Fold(model[0]) == 'd' && Fold(model[1]) == 's' && model[2] == ' '
    requires '0' <= model[3] <= '9'
    ensures SelfOverlapFree(model)
  {
    forall d | 0 < d < TagLength(model)
      ensures Clash(model, d)
    {
      var t := if d == 7 || d == |AttrPrefix| + 1 then 1 else 0;
      assert ClashAt(model, d, t);
    }
  }

  lemma ModelsOverlapFree()
    ensures forall m :: m in Models ==> SelfOverlapFree(m)
  {
    DsNameOverlapFree("DS 3");
    DsNameOverlapFree("DS 4");
    DsNameOverlapFree("DS 7");
    DsNameOverlapFree("DS 9");
  }

  /** The pattern matches where the tag itself is written, with either quote. */
  lemma TagAtLiteral(pre: string, post: string, model: string, q1: char, q2: char)
    requires IsQuote(q1) && IsQuote(q2)
    ensures TagAt(pre + (AttrPrefix + [q1] + model + [q2]) + post, |pre|, model)
  {
    var tag := AttrPrefix + [q1] + model + [q2];
    var html := pre + tag + post;
    forall t | 0 <= t < TagLength(model)
      ensures CharMatches(html[|pre| + t], PatternAt(model, t))
    {
      assert html[|pre| + t] == tag[t];
    }
    MatchesFromAll(html, |pre|, model, 0);
  }

  /** Three `data-model-text="DS 7"` elements in a row count as 3. */
  lemma ThreeTagsCountThree()
    ensures var tag := AttrPrefix + ['"'] + "DS 7" + ['"'];
            TagCount(tag + tag + tag, "DS 7") == 3
  {
    var tag := AttrPrefix + ['"'] + "DS 7" + ['"'];
    var html := tag + tag + tag;
    var L := TagLength("DS 7");
    assert |tag| == L && |html| == 3 * L;
    TagAtLiteral([], tag + tag, "DS 7", '"', '"');
    assert [] + tag + (tag + tag) == html;
    TagAtLiteral(tag, tag, "DS 7", '"', '"');
    TagAtLiteral(tag + tag, [], "DS 7", '"', '"');
    assert (tag + tag) + tag + [] == html;
    assert TagCountFrom(html, "DS 7", 3 * L) == 0;
    assert TagCountFrom(html, "DS 7", 2 * L) == 1;
    assert TagCountFrom(html, "DS 7", L) == 2;
    assert TagCountFrom(html, "DS 7", 0) == 3;
  }

  // ---------------------------------------------------------------------------
  // Records, one strategy per country
  // ---------------------------------------------------------------------------

  /** One record for each name whose count is positive, in the order of the
      names. */
  function PerModel(country: string, names: seq<string>, count: string -> int, tier: Tier): (out: seq<StockRecord>)
    ensures |out| <= |names|
    ensures forall r :: r in out ==>
      r.country == country && r.tier == tier && r.details == "" && r.stock > 0 &&
      r.model.JStr? && r.model.s in names && r.stock == count(r.model.s)
    ensures forall n :: n in names && count(n) > 0 ==> StockRecord(country, JStr(n), count(n), tier, "") in out
    decreases |names|
  {
    if names == [] then []
    else
      var rest := PerModel(country, names[1..], count, tier);
      if count(names[0]) > 0 then [StockRecord(country, JStr(names[0]), count(names[0]), tier, "")] + rest
      else rest
  }

  /** The row one name contributes on its own: one when its count is
      positive, none otherwise. */
  function ModelRow(country: string, name: string, count: string -> int, tier: Tier): Option<StockRecord> {
    if count(name) > 0 then Some(StockRecord(country, JStr(name), count(name), tier, "")) else None
  }

  function ModelRows(country: string, names: seq<string>, count: string -> int, tier: Tier): (rows: seq<Option<StockRecord>>)
    ensures |rows| == |names| && forall i :: 0 <= i < |names| ==> rows[i] == ModelRow(country, names[i], count, tier)
  {
    seq(|names|, i requires 0 <= i < |names| => ModelRow(country, names[i], count, tier))
  }

  /** The loop over the names emits exactly the rows the names contribute on
      their own, each once, in the order of the names. */
  lemma {:induction false} PerModelLists(country: string, names: seq<string>, count: string -> int, tier: Tier)
    ensures Lists(PerModel(country, names, count, tier), ModelRows(country, names, count, tier))
    decreases |names|
  {
    if names != [] {
      var rows := ModelRows(country, names, count, tier);
      PerModelLists(country, names[1..], count, tier);
      assert rows == [rows[0]] + ModelRows(country, names[1..], count, tier);
      ListsCons(rows[0], ModelRows(country, names[1..], count, tier), PerModel(country, names[1..], count, tier));
    }
  }

  /** Portugal: the price-proximity count, falling back to the heading count
      for a model whose name contains '4' when no price matched. */
  function PortugalCount(html: string, env: Env): (count: string -> int)
    ensures forall model :: env.priceNear(html, model) > 0 ==> count(model) == env.priceNear(html, model)
    ensures forall model :: '4' !in model ==> count(model) == env.priceNear(html, model)
    ensures forall model :: env.priceNear(html, model) == 0 && '4' in model ==> count(model) == env.headingNear(html, model)
  {
    (model: string) =>
      var c := env.priceNear(html, model);
      if c == 0 && '4' in model then env.headingNear(html, model) else c
  }

  /** The offer count of one JSON-LD block; None when the block is not a dict
      with `hasOfferCatalog`, or when reading the catalogue raises (a catalogue
      that is not a dict, an `itemListElement` without a length). */
  function SeoCount(jd: Json): (c: Option<nat>)
    ensures c.Some? ==> jd.JObject? && HasKey(jd, "hasOfferCatalog")
    ensures c.Some? ==> var cat := GetOr(jd.members, "hasOfferCatalog", JNull);
                        cat.JObject? && Len(GetOr(cat.members, "itemListElement", EmptyArray)) == c
    ensures jd.JObject? && HasKey(jd, "hasOfferCatalog") ==>
      var cat := GetOr(jd.members, "hasOfferCatalog", JNull);
      cat.JObject? ==> c == Len(GetOr(cat.members, "itemListElement", EmptyArray))
  {
    if jd.JObject? && HasKey(jd, "hasOfferCatalog") then
      var cat := GetOr(jd.members, "hasOfferCatalog", JNull);
      if cat.JObject? then Len(GetOr(cat.members, "itemListElement", EmptyArray)) else None
    else None
  }

  /** One 'Global' record per JSON-LD block with a positive offer count;
      blocks that fail to parse or to read are skipped. */
  function SeoRecords(country: string, blocks: seq<string>, env: Env): (out: seq<StockRecord>)
    ensures |out| <= |blocks|
    ensures forall r :: r in out ==>
      r.country == country && r.model == JStr("Global") && r.tier == GlobalSeo && r.details == "" && r.stock > 0
    ensures out != [] <==> exists b :: b in blocks && BlockCount(b, env) > 0
    ensures forall b :: b in blocks && BlockCount(b, env) > 0 ==>
      StockRecord(country, JStr("Global"), BlockCount(b, env), GlobalSeo, "") in out
    decreases |blocks|
  {
    if blocks == [] then []
    else
      var rest := SeoRecords(country, blocks[1..], env);
      var c := BlockCount(blocks[0], env);
      if c > 0 then [StockRecord(country, JStr("Global"), c, GlobalSeo, "")] + rest else rest
  }

  /** The row one JSON-LD block contributes on its own: a 'Global' row with
      its offer count when that count is positive. */
  function BlockRow(country: string, block: string, env: Env): Option<StockRecord> {
    if BlockCount(block, env) > 0 then Some(StockRecord(country, JStr("Global"), BlockCount(block, env), GlobalSeo, ""))
    else None
  }

  function BlockRows(country: string, blocks: seq<string>, env: Env): (rows: seq<Option<StockRecord>>)
    ensures |rows| == |blocks| && forall i :: 0 <= i < |blocks| ==> rows[i] == BlockRow(country, blocks[i], env)
  {
    seq(|blocks|, i requires 0 <= i < |blocks| => BlockRow(country, blocks[i], env))
  }

  /** The JSON-LD loop emits exactly the rows the blocks contribute on their
      own, one per block with a positive count, in block order. */
  lemma {:induction false} SeoRecordsLists(country: string, blocks: seq<string>, env: Env)
    ensures Lists(SeoRecords(country, blocks, env), BlockRows(country, blocks, env))
    decreases |blocks|
  {
    if blocks != [] {
      var rows := BlockRows(country, blocks, env);
      var tail := BlockRows(country, blocks[1..], env);
      SeoRecordsLists(country, blocks[1..], env);
      assert rows == [rows[0]] + tail;
      ListsCons(rows[0], tail, SeoRecords(country, blocks[1..], env));
    }
  }

  /** Every 'Global' row carries the offer count of some block. */
  lemma SeoStocksFromBlocks(country: string, blocks: seq<string>, env: Env)
    ensures forall r :: r in SeoRecords(country, blocks, env) ==> exists b :: b in blocks && BlockCount(b, env) == r.stock
  {
    var rows := BlockRows(country, blocks, env);
    var out := SeoRecords(country, blocks, env);
    SeoRecordsLists(country, blocks, env);
    ListsMembers(out, rows);
    forall r | r in out
      ensures exists b :: b in blocks && BlockCount(b, env) == r.stock
    {
      var i :| 0 <= i < |rows| && rows[i] == Some(r);
      assert blocks[i] in blocks && BlockCount(blocks[i], env) == r.stock;
    }
  }

  /** The offer count one block contributes; 0 when it contributes nothing. */
  function BlockCount(block: string, env: Env): nat {
    match env.parse(block)
    case None => 0
    case Some(jd) => match SeoCount(jd) case None => 0 case Some(c) => c
  }

  /** Every other country: the JSON-LD records when there are any, else the
      engine-keyword proximity counts. */
  function GenericRecords(country: string, html: string, env: Env): seq<StockRecord> {
    var seo := SeoRecords(country, env.ldJson(html), env);
    if seo != [] then seo
    else PerModel(country, Models, (model: string) => env.engineNear(html, model), EstimatedText)
  }

  /** The records of a fetched legacy page. */
  function LegacyRecords(country: string, html: string, env: Env): (out: seq<StockRecord>)
    ensures forall r :: r in out ==> r.country == country && r.stock > 0 && r.details == ""
    ensures forall i, j :: 0 <= i < |out| && 0 <= j < |out| ==> out[i].tier == out[j].tier
    ensures StrategyFor(country) == TagAttribute ==>
      forall r :: r in out ==> r.tier == PreciseHtml && r.model.JStr? && r.model.s in Models && r.stock == TagCount(html, r.model.s)
    ensures StrategyFor(country) == PriceProximity ==>
      forall r :: r in out ==> r.tier == Estimated && r.model.JStr? && r.model.s in Models
    ensures StrategyFor(country) == Generic ==>
      forall r :: r in out ==> r.tier == GlobalSeo || r.tier == EstimatedText
    ensures StrategyFor(country) == PriceProximity ==>
      forall m :: m in Models && PortugalCount(html, env)(m) > 0 ==>
        StockRecord(country, JStr(m), PortugalCount(html, env)(m), Estimated, "") in out
    ensures StrategyFor(country) == Generic && (forall b :: b in env.ldJson(html) ==> BlockCount(b, env) == 0) ==>
      forall m :: m in Models && env.engineNear(html, m) > 0 ==>
        StockRecord(country, JStr(m), env.engineNear(html, m), EstimatedText, "") in out
  {
    match StrategyFor(country)
    case TagAttribute => PerModel(country, Models, (model: string) => TagCount(html, model), PreciseHtml)
    case PriceProximity => PerModel(country, Models, PortugalCount(html, env), Estimated)
    case Generic => GenericRecords(country, html, env)
  }

  /** The rows of a page in full: each strategy emits, in the order of the
      searched names, exactly the row every name yields on its own under that
      strategy's count; the engine-keyword counts apply when no JSON-LD block
      has a positive offer count. */
  lemma LegacyRecordsLists(country: string, html: string, env: Env)
    ensures StrategyFor(country) == TagAttribute ==>
      Lists(LegacyRecords(country, html, env), ModelRows(country, Models, (m: string) => TagCount(html, m), PreciseHtml))
    ensures StrategyFor(country) == PriceProximity ==>
      Lists(LegacyRecords(country, html, env), ModelRows(country, Models, PortugalCount(html, env), Estimated))
    ensures StrategyFor(country) == Generic && (forall b :: b in env.ldJson(html) ==> BlockCount(b, env) == 0) ==>
      Lists(LegacyRecords(country, html, env), ModelRows(country, Models, (m: string) => env.engineNear(html, m), EstimatedText))
  {
    PerModelLists(country, Models, (m: string) => TagCount(html, m), PreciseHtml);
    PerModelLists(country, Models, PortugalCount(html, env), Estimated);
    PerModelLists(country, Models, (m: string) => env.engineNear(html, m), EstimatedText);
  }

  /** Germany: every record counts the tagged elements of its model, one per
      place the tag appears, and every model that appears gets a record. */
  lemma TagRecordsCountTags(html: string, env: Env)
    ensures forall r :: r in LegacyRecords("ALLEMAGNE", html, env) ==> r.stock == Occurrences(html, r.model.s, 0)
    ensures forall m :: m in Models && Occurrences(html, m, 0) > 0 ==>
      StockRecord("ALLEMAGNE", JStr(m), Occurrences(html, m, 0), PreciseHtml, "") in LegacyRecords("ALLEMAGNE", html, env)
  {
    ModelsOverlapFree();
    forall m | m in Models
      ensures TagCount(html, m) == Occurrences(html, m, 0)
    {
      TagCountIsOccurrences(html, m, 0);
    }
  }

  /** Germany reads nothing but the page itself. */
  lemma TagRecordsIgnoreEnv(html: string, env1: Env, env2: Env)
    ensures LegacyRecords("ALLEMAGNE", html, env1) == LegacyRecords("ALLEMAGNE", html, env2)
  {
  }

  /** Portugal: the heading count is consulted only for "DS 4", and only when
      no price matched. */
  lemma PortugalFallbackOnlyForDs4(html: string, env: Env)
    ensures forall r :: r in LegacyRecords("PORTUGAL", html, env) && r.model != JStr("DS 4") ==>
      r.stock == env.priceNear(html, r.model.s)
    ensures forall r :: r in LegacyRecords("PORTUGAL", html, env) && env.priceNear(html, r.model.s) > 0 ==>
      r.stock == env.priceNear(html, r.model.s)
  {
    var count := PortugalCount(html, env);
    var out := PerModel("PORTUGAL", Models, count, Estimated);
    assert LegacyRecords("PORTUGAL", html, env) == out;
    forall r | r in out && r.model != JStr("DS 4")
      ensures r.stock == env.priceNear(html, r.model.s)
    {
      FourOnlyInDs4(r.model.s);
    }
  }

  lemma FourOnlyInDs4(m: string)
    requires m in Models && m != "DS 4"
    ensures '4' !in m
  {
  }

  /** Elsewhere a page with a JSON-LD offer catalogue yields only 'Global'
      records, one per catalogue; the engine-keyword counts are used only when
      no block has a positive count, and then every model they find gets a
      record. */
  lemma SeoTakesPrecedence(country: string, html: string, env: Env)
    requires StrategyFor(country) == Generic
    ensures (exists b :: b in env.ldJson(html) && BlockCount(b, env) > 0) ==>
      LegacyRecords(country, html, env) == SeoRecords(country, env.ldJson(html), env) &&
      forall r :: r in LegacyRecords(country, html, env) ==> r.tier == GlobalSeo
    ensures (forall b :: b in env.ldJson(html) ==> BlockCount(b, env) == 0) ==>
      forall r :: r in LegacyRecords(country, html, env) ==> r.tier == EstimatedText && r.stock == env.engineNear(html, r.model.s)
    ensures (forall b :: b in env.ldJson(html) ==> BlockCount(b, env) == 0) ==>
      forall m :: m in Models && env.engineNear(html, m) > 0 ==>
        StockRecord(country, JStr(m), env.engineNear(html, m), EstimatedText, "") in LegacyRecords(country, html, env)
  {
  }
}

=== FILE: pyjson.dfy ===
/** A parsed JSON document as Python sees it after `json.loads`: `None`,
    booleans, integers, strings, lists and dicts. A dict is an ordered sequence
    of members (Python dicts keep insertion order); as a dict, its keys are
    distinct, and lookups return the first binding. Also here: the handful of
    Python operations the scraper applies to such values (`in`, `.get`, `len`,
    truthiness, `str`). */
module PyJson {

  import opened Results
  import opened Text

  datatype Json =
    | JNull
    | JBool(b: bool)
    | JNum(n: int)
    | JStr(s: string)
    | JArray(items: seq<Json>)
    | JObject(members: seq<Member>)

  datatype Member = Member(key: string, value: Json)

  const EmptyObject: Json := JObject([])
  const EmptyArray: Json := JArray([])

  function Keys(ms: seq<Member>): (ks: seq<string>)
    ensures |ks| == |ms|
    ensures forall i :: 0 <= i < |ms| ==> ks[i] == ms[i].key
  {
    seq(|ms|, i requires 0 <= i < |ms| => ms[i].key)
  }

  /** Python `k in j` for a dict `j`. */
  predicate HasKey(j: Json, k: string) {
    j.JObject? && Lookup(j.members, k).Some?
  }

  /** The value bound to `k`, if any. */
  function Lookup(ms: seq<Member>, k: string): Option<Json>
    decreases |ms|
  {
    if ms == [] then None
    else if ms[0].key == k then Some(ms[0].value)
    else Lookup(ms[1..], k)
  }

  /** A lookup succeeds exactly for the keys of the dict, and then returns a
      value bound to that key. */
  lemma {:induction false} LookupSpec(ms: seq<Member>, k: string)
    ensures Lookup(ms, k).None? <==> k !in Keys(ms)
    ensures Lookup(ms, k).Some? ==> exists i :: 0 <= i < |ms| && ms[i] == Member(k, Lookup(ms, k).value)
    decreases |ms|
  {
    if ms != [] {
      assert Keys(ms) == [ms[0].key] + Keys(ms[1..]);
      if ms[0].key != k {
        LookupSpec(ms[1..], k);
        if Lookup(ms, k).Some? {
          var i :| 0 <= i < |ms[1..]| && ms[1..][i] == Member(k, Lookup(ms, k).value);
          assert ms[i + 1] == Member(k, Lookup(ms, k).value);
        }
      }
    }
  }

  /** Python `d.get(k, default)` on a dict `d`. */
  function GetOr(ms: seq<Member>, k: string, default: Json): Json {
    match Lookup(ms, k)
    case Some(v) => v
    case None => default
  }

  /** Python `j.get(k, default)` on any value: only dicts have `.get`, anything
      else raises AttributeError. */
  function DictGet(j: Json, k: string, default: Json): (r: Result<Json, Crash>)
    ensures r.Err? <==> !j.JObject?
    ensures r.Err? ==> r.error == AttributeError
  {
    if j.JObject? then Ok(GetOr(j.members, k, default)) else Err(AttributeError)
  }

  /** Python truthiness: `None`, `False`, `0`, `""`, `[]` and `{}` are false. */
  predicate Truthy(j: Json) {
    match j
    case JNull => false
    case JBool(b) => b
    case JNum(n) => n != 0
    case JStr(s) => s != ""
    case JArray(items) => items != []
    case JObject(ms) => ms != []
  }

  /** Python `len(j)`; None where `len` raises TypeError. */
  function Len(j: Json): Option<nat> {
    match j
    case JStr(s) => Some(|s|)
    case JArray(items) => Some(|items|)
    case JObject(ms) => Some(|ms|)
    case _ => None
  }

  /** Python `str(j)`, as an f-string renders it: a string renders as itself,
      everything else as its `repr`. */
  function Render(j: Json): string {
    if j.JStr? then j.s else Repr(j)
  }

  /** Python `repr(j)`. Strings are quoted with single quotes; the escaping
      `repr` applies to quotes and unprintable characters is not modelled. */
  function Repr(j: Json): string
    decreases j
  {
    match j
    case JNull => "None"
    case JBool(b) => if b then "True" else "False"
    case JNum(n) => IntToString(n)
    case JStr(s) => "'" + s + "'"
    case JArray(items) => "[" + ReprItems(items) + "]"
    case JObject(ms) => "{" + ReprMembers(ms) + "}"
  }

  function ReprItems(items: seq<Json>): string
    decreases items
  {
    if items == [] then ""
    else if |items| == 1 then Repr(items[0])
    else Repr(items[0]) + ", " + ReprItems(items[1..])
  }

  function ReprMembers(ms: seq<Member>): string
    decreases ms
  {
    if ms == [] then ""
    else
      var head := "'" + ms[0].key + "': " + Repr(ms[0].value);
      if |ms| == 1 then head else head + ", " + ReprMembers(ms[1..])
  }
}

=== FILE: records.dfy ===
/** The rows `run_scraper` appends to `results`, the storefront registry
    entries, and the outside world the scraper consults. */
module Records {

  import opened Results
  import opened PyJson

  /** The `Type` column: how the stock figure was obtained. */
  datatype Tier =
    | PreciseApi      // stock page of a modern storefront
    | PreciseHtml     // tagged elements counted on a legacy page
    | Estimated       // price-proximity count (Portugal)
    | GlobalSeo       // offer catalogue of a JSON-LD block
    | EstimatedText   // engine-keyword proximity count

  /** The `Type` string a row carries for each tier, as lines 104, 123, 131,
      143 and 151 write it. */
  function TierLabel(t: Tier): string {
    match t
    case PreciseApi => "Précis (API)"
    case PreciseHtml => "Précis (HTML)"
    case Estimated => "Estimé"
    case GlobalSeo => "Global (SEO)"
    case EstimatedText => "Estimé (Text)"
  }

  /** The `Type` column tells the tiers apart: no two tiers share a string. */
  lemma TierLabelInjective(a: Tier, b: Tier)
    ensures TierLabel(a) == TierLabel(b) <==> a == b
  {
  }

  /** One row: `Pays`, `Modèle`, `Stock`, `Type`, `Détails`. The model column
      holds whatever value the source put there: the payload's `title` value
      for a modern storefront, a model name or "Global" otherwise. */
  datatype StockRecord = StockRecord(country: string, model: Json, stock: int, tier: Tier, details: string)

  /** A storefront served with an embedded `__NEXT_DATA__` payload. */
  datatype ModernSite = ModernSite(country: string, url: string, lat: string, lon: string)

  /** A storefront whose HTML is searched with patterns. */
  datatype LegacySite = LegacySite(country: string, url: string)

  /** What the scraper takes from outside: page fetching and the parts of the
      regular-expression and JSON libraries left uninterpreted.
      - fetch: `fetch_content(url)`; None when the request fails.
      - nextData: the first capture of the `__NEXT_DATA__` script search.
      - ldJson: the captures of the `application/ld+json` script search.
      - parse: `json.loads`; None when it raises.
      - priceNear, headingNear, engineNear: the number of matches of the
        price-proximity, heading and engine-keyword patterns for a model name
        in a page. */
  datatype Env = Env(
    fetch: string -> Option<string>,
    nextData: string -> Option<string>,
    ldJson: string -> seq<string>,
    parse: string -> Option<Json>,
    priceNear: (string, string) -> nat,
    headingNear: (string, string) -> nat,
    engineNear: (string, string) -> nat)

  /** `if html:` — a fetch that returned a non-empty page. */
  predicate Present(page: Option<string>) {
    page.Some? && page.value != ""
  }
}

=== FILE: results.dfy ===
/** Failure-carrying values used throughout the model.

    `Option` stands for Python's `None`-or-value returns (a fetch that failed,
    a regular expression that did not match); `Result` stands for a computation
    that may raise an exception the scraper never catches. */
module Results {

  datatype Option<+T> = None | Some(value: T)

  datatype Result<+T, +E> = Ok(value: T) | Err(error: E) {

    predicate IsFailure() {
      Err?
    }

    function PropagateFailure<U>(): Result<U, E>
      requires Err?
    {
      Err(error)
    }

    function Extract(): T
      requires Ok?
    {
      value
    }
  }

  /** The Python exceptions the modelled code can raise without catching them. */
  datatype Crash =
    | JsonDecodeError   // json.loads on a payload that is not JSON
    | AttributeError    // .get(...) on a value that is not a dict
    | TypeError         // comparison, iteration or subscription on the wrong type
    | KeyError(key: string)
}

=== FILE: scraper.dfy ===
/** `run_scraper`: the storefront registry, and the scan that visits the
    modern storefronts and then the legacy ones, collecting their records. */
module Scraper {

  import opened Results
  import opened PyJson
  import opened Discovery
  import opened Dedup
  import opened Records
  import opened StockPage
  import opened Legacy
  import opened Selection

  const ModernSites: seq<ModernSite> := [
    ModernSite("FRANCE", "https://store.dsautomobiles.fr", "46.2276", "2.2137"),
    ModernSite("ESPAGNE", "https://store.dsautomobiles.es", "40.4168", "-3.7038"),
    ModernSite("ITALIE", "https://store.dsautomobiles.it", "41.9028", "12.4964")
  ]

  const LegacySites: seq<LegacySite> := [
    LegacySite("ROYAUME-UNI", "https://www.stellantisandyou.co.uk/ds/new-cars-in-stock"),
    LegacySite("POLOGNE", "https://sklep.dsautomobiles.pl/"),
    LegacySite("PORTUGAL", "https://dsonlinestore.dsautomobiles.pt/listagem"),
    LegacySite("PAYS-BAS", "https://voorraad.dsautomobiles.nl/stock"),
    LegacySite("BELGIQUE", "https://stock.dsautomobiles.be/fr/stock"),
    LegacySite("ALLEMAGNE", "https://financing.dsautomobiles.store/bestand")
  ]

  // ---------------------------------------------------------------------------
  // Modern storefronts
  // ---------------------------------------------------------------------------

  /** The stock pages of the unique models, in order; the first crash aborts
      the whole scan. */
  function ApiRecords(site: ModernSite, ms: seq<ModelRef>, env: Env): (r: Result<seq<StockRecord>, Crash>)
    ensures r.Ok? ==> |r.value| <= |ms|
    ensures r.Ok? ==> forall rec :: rec in r.value ==> rec.country == site.country && rec.tier == PreciseApi
    decreases |ms|
  {
    if ms == [] then Ok([])
    else
      var head :- ModelRecord(site, ms[0], env);
      var tail :- ApiRecords(site, ms[1..], env);
      Ok(match head case Some(rec) => [rec] + tail case None => tail)
  }

  /** What each stock page yields, in order. */
  function Outcomes(site: ModernSite, ms: seq<ModelRef>, env: Env): (os: seq<Result<Option<StockRecord>, Crash>>)
    ensures |os| == |ms| && forall i :: 0 <= i < |ms| ==> os[i] == ModelRecord(site, ms[i], env)
  {
    seq(|ms|, i requires 0 <= i < |ms| => ModelRecord(site, ms[i], env))
  }

  /** The records of a sequence of outcomes, or the first crash among them. */
  function Gather(os: seq<Result<Option<StockRecord>, Crash>>): Result<seq<StockRecord>, Crash>
    decreases |os|
  {
    if os == [] then Ok([])
    else
      var head :- os[0];
      var tail :- Gather(os[1..]);
      Ok(match head case Some(rec) => [rec] + tail case None => tail)
  }

  /** Gathering crashes exactly when one outcome is a crash, with the error of
      the first; otherwise it holds exactly the records of the outcomes, in
      order, and an outcome without a record contributes nothing. */
  lemma {:induction false} GatherSpec(os: seq<Result<Option<StockRecord>, Crash>>)
    ensures Gather(os).Err? <==> exists i :: 0 <= i < |os| && os[i].Err?
    ensures Gather(os).Err? ==>
      exists i :: 0 <= i < |os| && os[i] == Err(Gather(os).error) && forall k :: 0 <= k < i ==> os[k].Ok?
    ensures Gather(os).Ok? ==> forall rec :: rec in Gather(os).value <==>
      exists i :: 0 <= i < |os| && os[i] == Ok(Some(rec))
    ensures Gather(os).Ok? ==> |Gather(os).value| <= |os|
    decreases |os|
  {
    if os != [] {
      GatherSpec(os[1..]);
      var r, rt := Gather(os), Gather(os[1..]);
      forall i | 1 <= i < |os|
        ensures os[i] == os[1..][i - 1]
      {
      }
      if os[0].Err? {
        assert r == Err(os[0].error);
      } else if rt.Err? {
        var i :| 0 <= i < |os[1..]| && os[1..][i] == Err(rt.error) && forall k :: 0 <= k < i ==> os[1..][k].Ok?;
        assert os[i + 1] == Err(r.error);
      } else {
        forall rec
          ensures rec in r.value <==> exists i :: 0 <= i < |os| && os[i] == Ok(Some(rec))
        {
          if rec in rt.value {
            var i :| 0 <= i < |os[1..]| && os[1..][i] == Ok(Some(rec));
            assert os[i + 1] == Ok(Some(rec));
          }
          if exists i :: 0 <= i < |os| && os[i] == Ok(Some(rec)) {
            var i :| 0 <= i < |os| && os[i] == Ok(Some(rec));
            if i > 0 {
              assert os[1..][i - 1] == Ok(Some(rec));
            }
          }
        }
      }
    }
  }

  /** The records the outcomes hold, with crashes read as no record. */
  function Unwrapped(os: seq<Result<Option<StockRecord>, Crash>>): (rows: seq<Option<StockRecord>>)
    ensures |rows| == |os| && forall i :: 0 <= i < |os| && os[i].Ok? ==> rows[i] == os[i].value
  {
    seq(|os|, i requires 0 <= i < |os| => if os[i].Ok? then os[i].value else None)
  }

  /** Gathering without a crash keeps exactly one record per outcome that
      holds one, in the order of the outcomes. */
  lemma {:induction false} GatherLists(os: seq<Result<Option<StockRecord>, Crash>>)
    ensures Gather(os).Ok? ==> Lists(Gather(os).value, Unwrapped(os))
    decreases |os|
  {
    if os != [] && Gather(os).Ok? {
      GatherLists(os[1..]);
      assert Unwrapped(os) == [os[0].value] + Unwrapped(os[1..]);
      ListsCons(os[0].value, Unwrapped(os[1..]), Gather(os[1..]).value);
    }
  }

  /** Scanning the stock pages one by one gathers their outcomes. */
  lemma {:induction false} ApiRecordsGather(site: ModernSite, ms: seq<ModelRef>, env: Env)
    ensures ApiRecords(site, ms, env) == Gather(Outcomes(site, ms, env))
    decreases |ms|
  {
    if ms != [] {
      ApiRecordsGather(site, ms[1..], env);
      assert Outcomes(site, ms, env)[1..] == Outcomes(site, ms[1..], env);
    }
  }

  /** A completed scan of the stock pages holds one 'Précis (API)' record for
      each model whose page yields one, in the order of the models. */
  lemma ApiRecordsInOrder(site: ModernSite, ms: seq<ModelRef>, env: Env)
    ensures ApiRecords(site, ms, env).Ok? ==> Lists(ApiRecords(site, ms, env).value, Unwrapped(Outcomes(site, ms, env)))
  {
    ApiRecordsGather(site, ms, env);
    GatherLists(Outcomes(site, ms, env));
  }

  /** One modern storefront: the home page payload is searched for models,
      deduplicated, and each unique model's stock page is read. */
  function ModernSiteRecords(site: ModernSite, env: Env): (r: Result<seq<StockRecord>, Crash>)
    ensures !Present(env.fetch(site.url)) ==> r == Ok([])
    ensures Present(env.fetch(site.url)) && env.nextData(env.fetch(site.url).value).None? ==> r == Ok([])
    ensures r.Ok? ==> forall rec :: rec in r.value ==> rec.country == site.country && rec.tier == PreciseApi
  {
    var page := env.fetch(site.url);
    if !Present(page) then Ok([])
    else match env.nextData(page.value)
      case None => Ok([])
      case Some(payload) =>
        match env.parse(payload)
        case None => Err(JsonDecodeError)
        case Some(data) => ApiRecords(site, Unique(FindModels(data)), env)
  }

  /** A home page whose payload does not parse crashes the scan; a parsed
      payload yields the outcomes of the stock pages of its unique models. */
  lemma ModernSiteSpec(site: ModernSite, env: Env)
    ensures var page := env.fetch(site.url);
      Present(page) && env.nextData(page.value).Some? ==>
        (env.parse(env.nextData(page.value).value).None? ==> ModernSiteRecords(site, env) == Err(JsonDecodeError)) &&
        (env.parse(env.nextData(page.value).value).Some? ==>
           ModernSiteRecords(site, env) ==
           Gather(Outcomes(site, Unique(FindModels(env.parse(env.nextData(page.value).value).value)), env)))
  {
    var page := env.fetch(site.url);
    if Present(page) && env.nextData(page.value).Some? && env.parse(env.nextData(page.value).value).Some? {
      ApiRecordsGather(site, Unique(FindModels(env.parse(env.nextData(page.value).value).value)), env);
    }
  }

  /** What each modern storefront yields, in registry order. */
  function SiteOutcomes(sites: seq<ModernSite>, env: Env): (rs: seq<Result<seq<StockRecord>, Crash>>)
    ensures |rs| == |sites| && forall i :: 0 <= i < |sites| ==> rs[i] == ModernSiteRecords(sites[i], env)
  {
    seq(|sites|, i requires 0 <= i < |sites| => ModernSiteRecords(sites[i], env))
  }

  /** The rows each modern storefront contributes, in registry order; a
      storefront that crashes contributes none. */
  function ModernParts(sites: seq<ModernSite>, env: Env): (parts: seq<seq<StockRecord>>)
    ensures |parts| == |sites| && forall i :: 0 <= i < |sites| && ModernSiteRecords(sites[i], env).Ok? ==>
      parts[i] == ModernSiteRecords(sites[i], env).value
  {
    Batches(SiteOutcomes(sites, env))
  }

  /** The modern storefronts one after the other; the first crash ends the
      scan. */
  function ModernAll(sites: seq<ModernSite>, env: Env): (r: Result<seq<StockRecord>, Crash>)
    ensures r.Err? <==> exists i :: 0 <= i < |sites| && ModernSiteRecords(sites[i], env).Err?
    ensures r.Err? ==> exists i :: 0 <= i < |sites| && ModernSiteRecords(sites[i], env) == Err(r.error) &&
                                   (forall k :: 0 <= k < i ==> ModernSiteRecords(sites[k], env).Ok?)
    ensures r.Ok? ==> forall rec :: rec in r.value ==>
      rec.tier == PreciseApi && exists i :: 0 <= i < |sites| && rec.country == sites[i].country
    ensures r.Ok? ==> forall rec :: rec in r.value <==>
      exists i :: 0 <= i < |sites| && ModernSiteRecords(sites[i], env).Ok? && rec in ModernSiteRecords(sites[i], env).value
    ensures r.Ok? ==> Concatenates(r.value, ModernParts(sites, env))
  {
    FlattenMembers(ModernParts(sites, env));
    FlattenAll(SiteOutcomes(sites, env))
  }

  // ---------------------------------------------------------------------------
  // Legacy storefronts
  // ---------------------------------------------------------------------------

  function LegacySiteRecords(site: LegacySite, env: Env): (out: seq<StockRecord>)
    ensures !Present(env.fetch(site.url)) ==> out == []
    ensures Present(env.fetch(site.url)) ==> out == LegacyRecords(site.country, env.fetch(site.url).value, env)
    ensures forall rec :: rec in out ==> rec.country == site.country && rec.stock > 0 && rec.tier != PreciseApi
  {
    var page := env.fetch(site.url);
    if !Present(page) then [] else LegacyRecords(site.country, page.value, env)
  }

  /** The rows each legacy storefront contributes, in registry order. */
  function LegacyParts(sites: seq<LegacySite>, env: Env): (parts: seq<seq<StockRecord>>)
    ensures |parts| == |sites| && forall i :: 0 <= i < |sites| ==> parts[i] == LegacySiteRecords(sites[i], env)
  {
    seq(|sites|, i requires 0 <= i < |sites| => LegacySiteRecords(sites[i], env))
  }

  /** The legacy storefronts one after the other; none of them can crash. */
  function LegacyAll(sites: seq<LegacySite>, env: Env): (out: seq<StockRecord>)
    ensures forall rec :: rec in out ==>
      rec.stock > 0 && rec.tier != PreciseApi && exists i :: 0 <= i < |sites| && rec.country == sites[i].country
    ensures forall rec :: rec in out <==> exists i :: 0 <= i < |sites| && rec in LegacySiteRecords(sites[i], env)
    ensures Concatenates(out, LegacyParts(sites, env))
  {
    FlattenMembers(LegacyParts(sites, env));
    Flatten(LegacyParts(sites, env))
  }

  // ---------------------------------------------------------------------------
  // The scan
  // ---------------------------------------------------------------------------

  /** No stock-page record follows a record of another kind. */
  predicate ApiFirst(rs: seq<StockRecord>) {
    forall i, j :: 0 <= i < j < |rs| && rs[j].tier == PreciseApi ==> rs[i].tier == PreciseApi
  }

  /** Stock-page rows followed by rows of other kinds keep the stock-page
      rows first. */
  lemma ApiFirstAppend(api: seq<StockRecord>, rest: seq<StockRecord>)
    requires forall rec :: rec in api ==> rec.tier == PreciseApi
    requires forall rec :: rec in rest ==> rec.tier != PreciseApi
    ensures ApiFirst(api + rest)
  {
    var all := api + rest;
    forall i, j | 0 <= i < j < |all| && all[j].tier == PreciseApi
      ensures all[i].tier == PreciseApi
    {
      if j < |api| {
        assert all[i] == api[i];
      } else {
        assert false;
      }
    }
  }

  function Scan(modern: seq<ModernSite>, legacy: seq<LegacySite>, env: Env): (r: Result<seq<StockRecord>, Crash>)
    ensures r.Err? <==> exists i :: 0 <= i < |modern| && ModernSiteRecords(modern[i], env).Err?
    ensures r.Ok? ==> ModernAll(modern, env).Ok? && r.value == ModernAll(modern, env).value + LegacyAll(legacy, env)
    ensures r.Ok? ==> Concatenates(r.value, ModernParts(modern, env) + LegacyParts(legacy, env))
    ensures r.Ok? ==> ApiFirst(r.value)
    ensures r.Ok? ==> forall rec :: rec in r.value ==>
      (exists i :: 0 <= i < |modern| && rec.country == modern[i].country) ||
      (exists i :: 0 <= i < |legacy| && rec.country == legacy[i].country)
    ensures r.Ok? ==> forall rec :: rec in r.value && rec.tier != PreciseApi ==> rec.stock > 0
    ensures r.Ok? ==> forall rec :: rec in r.value <==>
      (exists i :: 0 <= i < |modern| && ModernSiteRecords(modern[i], env).Ok? && rec in ModernSiteRecords(modern[i], env).value) ||
      (exists i :: 0 <= i < |legacy| && rec in LegacySiteRecords(legacy[i], env))
  {
    var api :- ModernAll(modern, env);
    var rest := LegacyAll(legacy, env);
    ApiFirstAppend(api, rest);
    ConcatenatesAppend(api, ModernParts(modern, env), rest, LegacyParts(legacy, env));
    Ok(api + rest)
  }

  /** The whole scan over the registry. */
  function RunScraper(env: Env): Result<seq<StockRecord>, Crash> {
    Scan(ModernSites, LegacySites, env)
  }

  const Countries: seq<string> :=
    ["FRANCE", "ESPAGNE", "ITALIE", "ROYAUME-UNI", "POLOGNE", "PORTUGAL", "PAYS-BAS", "BELGIQUE", "ALLEMAGNE"]

  /** Every record of a completed scan names one of the nine registered
      countries, and the scan fails only through a modern storefront. */
  lemma RunScraperSpec(env: Env)
    ensures RunScraper(env).Err? <==> exists i :: 0 <= i < |ModernSites| && ModernSiteRecords(ModernSites[i], env).Err?
    ensures RunScraper(env).Ok? ==> forall rec :: rec in RunScraper(env).value ==> rec.country in Countries
    ensures RunScraper(env).Ok? ==> ApiFirst(RunScraper(env).value)
  {
    assert forall i :: 0 <= i < |ModernSites| ==> ModernSites[i].country in Countries;
    assert forall i :: 0 <= i < |LegacySites| ==> LegacySites[i].country in Countries;
  }
}

=== FILE: selection.dfy ===
/** Building a result list in order. Every loop of the scraper that appends a
    row for some items and skips the others is an instance of `Lists(out, xs)`:
    `out` holds exactly the values of the `Some` entries of `xs`, each once, in
    the order of `xs`. Every loop that appends a whole batch of rows per item is
    an instance of `Concatenates(out, parts)`: batch i sits, unchanged, right
    after the batches before it. */
module Selection {

  import opened Results

  /** The positions of `xs` that hold a value, in increasing order. */
  function Filled<T>(xs: seq<Option<T>>): (idx: seq<nat>)
    ensures forall k :: 0 <= k < |idx| ==> idx[k] < |xs|
    decreases |xs|
  {
    if xs == [] then []
    else (if xs[0].Some? then [0] else []) + Shift(Filled(xs[1..]))
  }

  /** Every position moved one place to the right. */
  function Shift(idx: seq<nat>): (r: seq<nat>)
    ensures |r| == |idx| && forall k :: 0 <= k < |idx| ==> r[k] == idx[k] + 1
  {
    seq(|idx|, k requires 0 <= k < |idx| => idx[k] + 1)
  }

  /** `idx` enumerates the filled positions of `xs`: each is a filled
      position, they increase strictly, and none is missing. */
  predicate Enumerates<T>(idx: seq<nat>, xs: seq<Option<T>>) {
    (forall k :: 0 <= k < |idx| ==> idx[k] < |xs| && xs[idx[k]].Some?) &&
    (forall k, l :: 0 <= k < l < |idx| ==> idx[k] < idx[l]) &&
    (forall p :: 0 <= p < |xs| && xs[p].Some? ==> p in idx)
  }

  /** `out` is the sequence of values of the filled entries of `xs`, in order. */
  ghost predicate Lists<T>(out: seq<T>, xs: seq<Option<T>>) {
    var idx := Filled(xs);
    |out| == |idx| && forall k :: 0 <= k < |idx| ==> xs[idx[k]] == Some(out[k])
  }

  /** `Filled` lists exactly the filled positions, each once, in increasing
      order; so `Lists` pins its `out` down completely. */
  lemma FilledEnumerates<T>(xs: seq<Option<T>>)
    ensures Enumerates(Filled(xs), xs)
  {
    FilledSound(xs);
    FilledIncreasing(xs);
    FilledComplete(xs);
  }

  lemma {:induction false} FilledSound<T>(xs: seq<Option<T>>)
    ensures forall k :: 0 <= k < |Filled(xs)| ==> xs[Filled(xs)[k]].Some?
    decreases |xs|
  {
    if xs != [] {
      var tail := xs[1..];
      FilledSound(tail);
      var rest, idx := Filled(tail), Filled(xs);
      var head: seq<nat> := if xs[0].Some? then [0] else [];
      var sh := Shift(rest);
      assert idx == head + sh;
      forall k | 0 <= k < |idx|
        ensures xs[idx[k]].Some?
      {
        if k >= |head| {
          assert idx[k] == sh[k - |head|] == rest[k - |head|] + 1;
          assert xs[idx[k]] == tail[rest[k - |head|]];
        }
      }
    }
  }

  lemma {:induction false} FilledIncreasing<T>(xs: seq<Option<T>>)
    ensures forall k, l :: 0 <= k < l < |Filled(xs)| ==> Filled(xs)[k] < Filled(xs)[l]
    decreases |xs|
  {
    if xs != [] {
      var tail := xs[1..];
      FilledIncreasing(tail);
      var rest, idx := Filled(tail), Filled(xs);
      var head: seq<nat> := if xs[0].Some? then [0] else [];
      var sh := Shift(rest);
      assert idx == head + sh;
      forall k, l | 0 <= k < l < |idx|
        ensures idx[k] < idx[l]
      {
        assert idx[l] == sh[l - |head|];
        if k >= |head| {
          assert idx[k] == sh[k - |head|];
          assert rest[k - |head|] < rest[l - |head|];
        }
      }
    }
  }

  lemma {:induction false} FilledComplete<T>(xs: seq<Option<T>>)
    ensures forall p :: 0 <= p < |xs| && xs[p].Some? ==> p in Filled(xs)
    decreases |xs|
  {
    if xs != [] {
      var tail := xs[1..];
      FilledComplete(tail);
      var rest, idx := Filled(tail), Filled(xs);
      var head: seq<nat> := if xs[0].Some? then [0] else [];
      var sh := Shift(rest);
      assert idx == head + sh;
      forall p | 0 <= p < |xs| && xs[p].Some?
        ensures p in idx
      {
        if p > 0 {
          assert tail[p - 1] == xs[p];
          var k :| 0 <= k < |rest| && rest[k] == p - 1;
          assert idx[|head| + k] == sh[k] == p;
        }
      }
    }
  }

  /** Listing grows one entry at a time: an empty entry adds nothing, a
      filled one adds its value in front. */
  lemma {:induction false} ListsCons<T>(x: Option<T>, xs: seq<Option<T>>, out: seq<T>)
    requires Lists(out, xs)
    ensures Lists((if x.Some? then [x.value] else []) + out, [x] + xs)
  {
    var ys := [x] + xs;
    assert ys[1..] == xs;
    var rest := Filled(xs);
    var idx := Filled(ys);
    var head: seq<T> := if x.Some? then [x.value] else [];
    var res := head + out;
    assert |idx| == |head| + |rest|;
    forall k | 0 <= k < |idx|
      ensures ys[idx[k]] == Some(res[k])
    {
      if k >= |head| {
        assert idx[k] == rest[k - |head|] + 1;
        assert ys[idx[k]] == xs[rest[k - |head|]];
        assert res[k] == out[k - |head|];
      }
    }
  }

  /** A listed value comes from a filled entry, and every filled entry's
      value is listed. */
  lemma ListsMembers<T>(out: seq<T>, xs: seq<Option<T>>)
    requires Lists(out, xs)
    ensures forall v :: v in out <==> Some(v) in xs
  {
    var idx := Filled(xs);
    FilledEnumerates(xs);
    forall v
      ensures v in out <==> Some(v) in xs
    {
      if v in out {
        var k :| 0 <= k < |out| && out[k] == v;
        assert xs[idx[k]] == Some(v);
      }
      if Some(v) in xs {
        var p :| 0 <= p < |xs| && xs[p] == Some(v);
        var k :| 0 <= k < |idx| && idx[k] == p;
        assert out[k] == v;
      }
    }
  }

  // ---------------------------------------------------------------------------
  // Concatenation
  // ---------------------------------------------------------------------------

  /** The total length of the first `n` parts: where part `n` starts. */
  function Offset<T>(parts: seq<seq<T>>, n: nat): nat
    requires n <= |parts|
  {
    if n == 0 then 0 else Offset(parts, n - 1) + |parts[n - 1]|
  }

  /** Part i sits in `out` right after the parts before it. */
  ghost predicate PartAt<T>(out: seq<T>, parts: seq<seq<T>>, i: nat)
    requires i < |parts|
  {
    Offset(parts, i) + |parts[i]| <= |out| && out[Offset(parts, i)..Offset(parts, i) + |parts[i]|] == parts[i]
  }

  /** `out` is the parts laid end to end: part i occupies the stretch from
      the end of the parts before it, and nothing else is there. */
  ghost predicate Concatenates<T>(out: seq<T>, parts: seq<seq<T>>) {
    |out| == Offset(parts, |parts|) && forall i :: 0 <= i < |parts| ==> PartAt(out, parts, i)
  }

  /** A part in front shifts every later part by its length. */
  lemma {:induction false} OffsetCons<T>(p: seq<T>, parts: seq<seq<T>>, n: nat)
    requires n <= |parts|
    ensures Offset([p] + parts, n + 1) == |p| + Offset(parts, n)
  {
    if n > 0 {
      OffsetCons(p, parts, n - 1);
      assert ([p] + parts)[n] == parts[n - 1];
    }
  }

  /** The parts before the appended ones keep their places; the appended ones
      move by the length of the first list. */
  lemma {:induction false} OffsetAppend<T>(ps: seq<seq<T>>, qs: seq<seq<T>>, n: nat)
    requires n <= |ps| + |qs|
    ensures n <= |ps| ==> Offset(ps + qs, n) == Offset(ps, n)
    ensures n >= |ps| ==> Offset(ps + qs, n) == Offset(ps, |ps|) + Offset(qs, n - |ps|)
  {
    if n > 0 {
      OffsetAppend(ps, qs, n - 1);
      if n <= |ps| {
        assert (ps + qs)[n - 1] == ps[n - 1];
      } else {
        assert (ps + qs)[n - 1] == qs[n - 1 - |ps|];
      }
    }
  }

  /** A stretch of the second list, seen inside the joined list. */
  lemma SliceRight<T>(x: seq<T>, y: seq<T>, s: nat, e: nat)
    requires s <= e <= |y|
    ensures (x + y)[|x| + s..|x| + e] == y[s..e]
  {
    var l, r := (x + y)[|x| + s..|x| + e], y[s..e];
    assert |l| == |r|;
    forall k | 0 <= k < |l|
      ensures l[k] == r[k]
    {
      assert l[k] == (x + y)[|x| + s + k];
    }
  }

  /** A stretch of the first list, seen inside the joined list. */
  lemma SliceLeft<T>(x: seq<T>, y: seq<T>, s: nat, e: nat)
    requires s <= e <= |x|
    ensures (x + y)[s..e] == x[s..e]
  {
    var l, r := (x + y)[s..e], x[s..e];
    assert |l| == |r|;
    forall k | 0 <= k < |l|
      ensures l[k] == r[k]
    {
      assert l[k] == (x + y)[s + k];
    }
  }

  /** Concatenation grows one part at a time at the front. */
  lemma {:induction false} ConcatenatesCons<T>(p: seq<T>, parts: seq<seq<T>>, out: seq<T>)
    requires Concatenates(out, parts)
    ensures Concatenates(p + out, [p] + parts)
  {
    var ps := [p] + parts;
    var res := p + out;
    OffsetCons(p, parts, |parts|);
    forall i | 0 <= i < |ps|
      ensures PartAt(res, ps, i)
    {
      if i == 0 {
        SliceLeft(p, out, 0, |p|);
      } else {
        var j := i - 1;
        OffsetCons(p, parts, j);
        assert ps[i] == parts[j];
        assert PartAt(out, parts, j);
        var a := Offset(parts, j);
        SliceRight(p, out, a, a + |parts[j]|);
      }
    }
  }

  /** Two concatenations side by side concatenate all the parts. */
  lemma ConcatenatesAppend<T>(a: seq<T>, ps: seq<seq<T>>, b: seq<T>, qs: seq<seq<T>>)
    requires Concatenates(a, ps) && Concatenates(b, qs)
    ensures Concatenates(a + b, ps + qs)
  {
    var all, res := ps + qs, a + b;
    OffsetAppend(ps, qs, |all|);
    forall i | 0 <= i < |all|
      ensures PartAt(res, all, i)
    {
      OffsetAppend(ps, qs, i);
      if i < |ps| {
        assert all[i] == ps[i];
        assert PartAt(a, ps, i);
        var s := Offset(ps, i);
        SliceLeft(a, b, s, s + |ps[i]|);
      } else {
        var j := i - |ps|;
        assert all[i] == qs[j];
        assert PartAt(b, qs, j);
        var s := Offset(qs, j);
        SliceRight(a, b, s, s + |qs[j]|);
      }
    }
  }

  /** The parts laid end to end. */
  function Flatten<T>(parts: seq<seq<T>>): (out: seq<T>)
    ensures Concatenates(out, parts)
    decreases |parts|
  {
    if parts == [] then []
    else
      var tail := Flatten(parts[1..]);
      assert parts == [parts[0]] + parts[1..];
      ConcatenatesCons(parts[0], parts[1..], tail);
      parts[0] + tail
  }

  /** A value is in the flattened list exactly when some part holds it. */
  lemma {:induction false} FlattenMembers<T>(parts: seq<seq<T>>)
    ensures forall v :: v in Flatten(parts) <==> exists i :: 0 <= i < |parts| && v in parts[i]
    decreases |parts|
  {
    if parts != [] {
      FlattenMembers(parts[1..]);
      forall v
        ensures v in Flatten(parts) <==> exists i :: 0 <= i < |parts| && v in parts[i]
      {
        if exists i :: 0 <= i < |parts| && v in parts[i] {
          var i :| 0 <= i < |parts| && v in parts[i];
          if i > 0 {
            assert parts[1..][i - 1] == parts[i];
          }
        }
        if v in Flatten(parts[1..]) {
          var i :| 0 <= i < |parts[1..]| && v in parts[1..][i];
          assert parts[i + 1] == parts[1..][i];
        }
      }
    }
  }

  /** The batches of a sequence of outcomes; a failed outcome has none. */
  function Batches<T, E>(rs: seq<Result<seq<T>, E>>): (parts: seq<seq<T>>)
    ensures |parts| == |rs| && forall i :: 0 <= i < |rs| && rs[i].Ok? ==> parts[i] == rs[i].value
  {
    seq(|rs|, i requires 0 <= i < |rs| => if rs[i].Ok? then rs[i].value else [])
  }

  /** The batches of the outcomes laid end to end, or the first failure among
      them. */
  function FlattenAll<T, E>(rs: seq<Result<seq<T>, E>>): (r: Result<seq<T>, E>)
    ensures r.Err? <==> exists i :: 0 <= i < |rs| && rs[i].Err?
    ensures r.Err? ==> exists i :: 0 <= i < |rs| && rs[i] == Err(r.error) && forall k :: 0 <= k < i ==> rs[k].Ok?
    ensures r.Ok? ==> r.value == Flatten(Batches(rs))
    decreases |rs|
  {
    if rs == [] then Ok([])
    else
      var head :- rs[0];
      var tail :- FlattenAll(rs[1..]);
      assert Batches(rs) == [head] + Batches(rs[1..]);
      assert forall i :: 1 <= i < |rs| ==> rs[i] == rs[1..][i - 1];
      Ok(head + tail)
  }
}

=== FILE: stock_page.dfy ===
/** The per-model stock page of a modern storefront: its address, and how the
    embedded payload is read into a count, a fuel breakdown and a record. */
module StockPage {

  import opened Results
  import opened Text
  import opened PyJson
  import opened Discovery
  import opened Dedup
  import opened Records

  // ---------------------------------------------------------------------------
  // The stock-page address
  // ---------------------------------------------------------------------------

  const StockSegment: string := "/stock/"
  const ChannelQuery: string := "channel=b2c&latitude="
  const LongitudeKey: string := "longitude="

  /** The stock page of one model: the storefront root, the model id and the
      body-style id as path segments, then the channel and the coordinates. */
  function StockUrl(base: string, lat: string, lon: string, m: ModelRef): (url: string)
    ensures StartsWith(url, base + StockSegment)
  {
    (base + StockSegment) + (Render(m.id) + "/" + Render(m.bodyId) + "?" + ChannelQuery + lat + "&" + LongitudeKey + lon)
  }

  /** Reads a stock-page address back into its id, body-style id, latitude
      and longitude; None when it does not have the shape `StockUrl` builds. */
  function ParseStockUrl(base: string, url: string): Option<(string, string, string, string)> {
    if !StartsWith(url, base + StockSegment) then None
    else match SplitAt(url[|base + StockSegment|..], '/')
      case None => None
      case Some((id, rest)) =>
        match SplitAt(rest, '?')
        case None => None
        case Some((body, query)) =>
          if !StartsWith(query, ChannelQuery) then None
          else match SplitAt(query[|ChannelQuery|..], '&')
            case None => None
            case Some((lat, tail)) =>
              if !StartsWith(tail, LongitudeKey) then None
              else Some((id, body, lat, tail[|LongitudeKey|..]))
  }

  lemma StripPrefix(p: string, s: string)
    ensures StartsWith(p + s, p) && (p + s)[|p|..] == s
  {
    assert (p + s)[..|p|] == p;
  }

  /** The address determines the model and the coordinates, as long as the id
      has no '/', the body-style id no '?' and the latitude no '&'. */
  lemma StockUrlRoundTrip(base: string, lat: string, lon: string, m: ModelRef)
    requires '/' !in Render(m.id) && '?' !in Render(m.bodyId) && '&' !in lat
    ensures ParseStockUrl(base, StockUrl(base, lat, lon, m)) == Some((Render(m.id), Render(m.bodyId), lat, lon))
  {
    var id, body := Render(m.id), Render(m.bodyId);
    var tail := LongitudeKey + lon;
    var latPart := lat + ['&'] + tail;
    var query := ChannelQuery + latPart;
    var rest := body + ['?'] + query;
    var path := id + ['/'] + rest;
    assert StockUrl(base, lat, lon, m) == (base + StockSegment) + path;
    StripPrefix(base + StockSegment, path);
    SplitAtJoin(id, '/', rest);
    SplitAtJoin(body, '?', query);
    StripPrefix(ChannelQuery, latPart);
    SplitAtJoin(lat, '&', tail);
    StripPrefix(LongitudeKey, lon);
  }

  /** Two records share a stock page only if they render to the same ids. */
  lemma StockUrlInjective(base: string, lat: string, lon: string, m1: ModelRef, m2: ModelRef)
    requires '/' !in Render(m1.id) && '?' !in Render(m1.bodyId)
    requires '/' !in Render(m2.id) && '?' !in Render(m2.bodyId)
    requires '&' !in lat
    requires StockUrl(base, lat, lon, m1) == StockUrl(base, lat, lon, m2)
    ensures Render(m1.id) == Render(m2.id) && Render(m1.bodyId) == Render(m2.bodyId)
  {
    StockUrlRoundTrip(base, lat, lon, m1);
    StockUrlRoundTrip(base, lat, lon, m2);
  }

  /** Without the separator restriction two different models can share a page:
      ids "a/b" and "c" give the same address as ids "a" and "b/c". */
  lemma SlashedIdsShareUrl(base: string, lat: string, lon: string)
    ensures var m1 := ModelRef(JStr("a/b"), JStr("c"), JNull);
            var m2 := ModelRef(JStr("a"), JStr("b/c"), JNull);
            Key(m1) != Key(m2) && StockUrl(base, lat, lon, m1) == StockUrl(base, lat, lon, m2)
  {
    var m1 := ModelRef(JStr("a/b"), JStr("c"), JNull);
    var m2 := ModelRef(JStr("a"), JStr("b/c"), JNull);
    assert Key(m1)[1] != Key(m2)[1];
  }

  // ---------------------------------------------------------------------------
  // Reading the stock-page payload
  // ---------------------------------------------------------------------------

  /** The keys leading from the payload to the offers. */
  const OffersPath: seq<string> := ["props", "pageProps", "offers"]

  /** The value reached by following `path` through nested dicts; None when a
      key is missing or a step meets something other than a dict. */
  function At(j: Json, path: seq<string>): Option<Json>
    decreases |path|
  {
    if path == [] then Some(j)
    else if !j.JObject? then None
    else match Lookup(j.members, path[0])
      case None => None
      case Some(v) => At(v, path[1..])
  }

  /** Following `path` meets a value that is not a dict while keys remain. */
  predicate Blocked(j: Json, path: seq<string>)
    decreases |path|
  {
    path != [] &&
    (!j.JObject? ||
     match Lookup(j.members, path[0])
     case None => false
     case Some(v) => Blocked(v, path[1..]))
  }

  /** The offers of a stock-page payload, reached through `props` and
      `pageProps`, each step defaulting to an empty dict when its key is
      missing and raising on a value that is not a dict. */
  function Offers(sdata: Json): Result<Json, Crash> {
    var props :- DictGet(sdata, "props", EmptyObject);
    var page :- DictGet(props, "pageProps", EmptyObject);
    DictGet(page, "offers", EmptyObject)
  }

  /** The offers chain raises AttributeError exactly when it steps into a
      present value that is not a dict; otherwise it yields the offers found at
      the end of the path, or an empty dict when a key along it is missing. */
  lemma OffersSpec(sdata: Json)
    ensures Offers(sdata).Err? <==> Blocked(sdata, OffersPath)
    ensures Offers(sdata).Err? ==> Offers(sdata).error == AttributeError
    ensures At(sdata, OffersPath).Some? ==> Offers(sdata) == Ok(At(sdata, OffersPath).value)
    ensures !Blocked(sdata, OffersPath) && At(sdata, OffersPath).None? ==> Offers(sdata) == Ok(EmptyObject)
  {
    assert OffersPath[1..] == ["pageProps", "offers"];
    assert OffersPath[1..][1..] == ["offers"];
    assert OffersPath[1..][1..][1..] == [];
  }

  /** The value of `count` as line 98 compares it with 0: numbers compare as
      themselves and booleans as 0 or 1; anything else raises TypeError. */
  function CountValue(c: Json): (r: Result<int, Crash>)
    ensures r.Err? <==> !(c.JNum? || c.JBool?)
    ensures r.Err? ==> r.error == TypeError
    ensures c.JNum? ==> r == Ok(c.n)
  {
    match c
    case JNum(n) => Ok(n)
    case JBool(b) => Ok(if b then 1 else 0)
    case _ => Err(TypeError)
  }

  /** The stock figure: a dict's `count` (0 when absent), a list's length, or
      0 for anything else. */
  function OfferCount(offers: Json): (r: Result<int, Crash>)
    ensures r.Err? ==> offers.JObject? && r.error == TypeError
    ensures r.Ok? ==> r.value >= 0 || (offers.JObject? && GetOr(offers.members, "count", JNum(0)) == JNum(r.value))
    ensures offers.JArray? ==> r == Ok(|offers.items|)
    ensures offers.JObject? && !HasKey(offers, "count") ==> r == Ok(0)
    ensures offers.JObject? && HasKey(offers, "count") ==>
      match GetOr(offers.members, "count", JNull)
      case JNum(n) => r == Ok(n)
      case JBool(b) => r == Ok(if b then 1 else 0)
      case _ => r == Err(TypeError)
    ensures !offers.JObject? && !offers.JArray? ==> r == Ok(0)
  {
    match offers
    case JObject(ms) => CountValue(GetOr(ms, "count", JNum(0)))
    case JArray(items) => Ok(|items|)
    case _ => Ok(0)
  }

  /** One fuel-type entry rendered as "title (count)". The entry must be a
      dict holding both keys: indexing anything else raises TypeError, a
      missing key raises KeyError. */
  function FuelLabel(e: Json): (r: Result<string, Crash>)
    ensures r.Ok? <==> e.JObject? && HasKey(e, "title") && HasKey(e, "count")
    ensures r.Ok? ==> r.value == Render(GetOr(e.members, "title", JNull)) + " (" + Render(GetOr(e.members, "count", JNull)) + ")"
    ensures r.Err? && e.JObject? ==> r.error.KeyError?
  {
    if !e.JObject? then Err(TypeError)
    else match Lookup(e.members, "title")
      case None => Err(KeyError("title"))
      case Some(t) =>
        match Lookup(e.members, "count")
        case None => Err(KeyError("count"))
        case Some(c) => Ok(Render(t) + " (" + Render(c) + ")")
  }

  /** The labels of a list of entries, in order; the first entry that cannot
      be rendered aborts the list with its error. */
  function FuelLabels(es: seq<Json>): (r: Result<seq<string>, Crash>)
    ensures r.Ok? <==> forall i :: 0 <= i < |es| ==> FuelLabel(es[i]).Ok?
    ensures r.Ok? ==> |r.value| == |es| && forall i :: 0 <= i < |es| ==> FuelLabel(es[i]) == Ok(r.value[i])
    ensures r.Err? ==> exists i :: 0 <= i < |es| && FuelLabel(es[i]) == Err(r.error) &&
                                   forall k :: 0 <= k < i ==> FuelLabel(es[k]).Ok?
    decreases |es|
  {
    if es == [] then Ok([])
    else
      var head :- FuelLabel(es[0]);
      var tail :- FuelLabels(es[1..]);
      Ok([head] + tail)
  }

  /** The `Détails` column: for a positive count on a dict of offers, the
      fuel-type breakdown joined with ", "; otherwise empty. */
  function Details(offers: Json, count: int): (r: Result<string, Crash>)
    ensures !(count > 0 && offers.JObject?) ==> r == Ok("")
  {
    if count > 0 && offers.JObject? then
      var energies :- DictGet(GetOr(offers.members, "filters", EmptyObject), "fuelTypes", EmptyArray);
      if !Truthy(energies) then Ok("")
      else if !energies.JArray? then Err(TypeError)
      else
        var labels :- FuelLabels(energies.items);
        Ok(Join(", ", labels))
    else Ok("")
  }

  /** The `fuelTypes` value as line 99 reads it, when `filters` is a dict. */
  function FuelTypes(offers: Json): Option<Json>
    requires offers.JObject?
  {
    var filters := GetOr(offers.members, "filters", EmptyObject);
    if filters.JObject? then Some(GetOr(filters.members, "fuelTypes", EmptyArray)) else None
  }

  /** The details are non-empty exactly when the count is positive, the offers
      are a dict, and its fuel types are a non-empty list of well-formed
      entries; the details then list one label per entry. A falsy fuel-type
      value gives no details, a truthy one that is not a list raises
      TypeError, and the first malformed entry's error aborts the page. */
  lemma DetailsSpec(offers: Json, count: int)
    ensures Details(offers, count).Ok? && Details(offers, count).value != "" <==>
      count > 0 && offers.JObject? && FuelTypes(offers).Some? &&
      FuelTypes(offers).value.JArray? && FuelTypes(offers).value.items != [] &&
      FuelLabels(FuelTypes(offers).value.items).Ok?
    ensures count > 0 && offers.JObject? && FuelTypes(offers).None? ==> Details(offers, count) == Err(AttributeError)
    ensures (count > 0 && offers.JObject? && FuelTypes(offers).Some? && FuelTypes(offers).value.JArray? &&
             FuelLabels(FuelTypes(offers).value.items).Ok?) ==>
      Details(offers, count) == Ok(Join(", ", FuelLabels(FuelTypes(offers).value.items).value))
    ensures count > 0 && offers.JObject? && FuelTypes(offers).Some? && !Truthy(FuelTypes(offers).value) ==>
      Details(offers, count) == Ok("")
    ensures count > 0 && offers.JObject? && FuelTypes(offers).Some? &&
            Truthy(FuelTypes(offers).value) && !FuelTypes(offers).value.JArray? ==>
      Details(offers, count) == Err(TypeError)
    ensures count > 0 && offers.JObject? && FuelTypes(offers).Some? && FuelTypes(offers).value.JArray? &&
            FuelLabels(FuelTypes(offers).value.items).Err? ==>
      Details(offers, count) == Err(FuelLabels(FuelTypes(offers).value.items).error)
  {
    if count > 0 && offers.JObject? && FuelTypes(offers).Some? {
      var energies := FuelTypes(offers).value;
      if energies.JArray? && energies.items != [] && FuelLabels(energies.items).Ok? {
        var labels := FuelLabels(energies.items).value;
        assert FuelLabel(energies.items[0]) == Ok(labels[0]);
        assert |labels[0]| > 0;
      }
    }
  }

  // ---------------------------------------------------------------------------
  // One record per stock page
  // ---------------------------------------------------------------------------

  /** The record built from a parsed stock-page payload. */
  function PageRecord(country: string, name: Json, sdata: Json): (r: Result<StockRecord, Crash>)
    ensures r.Ok? ==> r.value.country == country && r.value.model == name && r.value.tier == PreciseApi
    ensures r.Ok? ==> Offers(sdata).Ok? && OfferCount(Offers(sdata).value) == Ok(r.value.stock)
    ensures r.Ok? ==> Details(Offers(sdata).value, r.value.stock) == Ok(r.value.details)
    ensures r.Err? <==> Offers(sdata).Err? || OfferCount(Offers(sdata).value).Err? ||
                        Details(Offers(sdata).value, OfferCount(Offers(sdata).value).value).Err?
  {
    var offers :- Offers(sdata);
    var count :- OfferCount(offers);
    var details :- Details(offers, count);
    Ok(StockRecord(country, name, count, PreciseApi, details))
  }

  /** What the stock page of one unique model contributes: nothing, one
      record, or a crash that aborts the scan. */
  function ModelRecord(site: ModernSite, m: ModelRef, env: Env): (r: Result<Option<StockRecord>, Crash>)
    ensures r.Ok? && r.value.Some? ==>
      r.value.value.country == site.country && r.value.value.model == m.name && r.value.value.tier == PreciseApi
  {
    var page := env.fetch(StockUrl(site.url, site.lat, site.lon, m));
    if !Present(page) then Ok(None)
    else match env.nextData(page.value)
      case None => Ok(None)
      case Some(payload) =>
        match env.parse(payload)
        case None => Err(JsonDecodeError)
        case Some(sdata) =>
          var rec :- PageRecord(site.country, m.name, sdata);
          Ok(Some(rec))
  }

  /** A model whose stock page fails to fetch or lacks the payload marker
      contributes nothing; a payload that does not parse crashes; otherwise
      the page yields exactly the record read from its payload, even for a
      count of 0. */
  lemma ModelRecordSpec(site: ModernSite, m: ModelRef, env: Env)
    ensures var page := env.fetch(StockUrl(site.url, site.lat, site.lon, m));
      var r := ModelRecord(site, m, env);
      (!Present(page) ==> r == Ok(None)) &&
      (Present(page) && env.nextData(page.value).None? ==> r == Ok(None)) &&
      (Present(page) && env.nextData(page.value).Some? && env.parse(env.nextData(page.value).value).None? ==>
         r == Err(JsonDecodeError)) &&
      (Present(page) && env.nextData(page.value).Some? && env.parse(env.nextData(page.value).value).Some? ==>
         var sdata := env.parse(env.nextData(page.value).value).value;
         (r.Ok? <==> PageRecord(site.country, m.name, sdata).Ok?) &&
         (r.Ok? ==> r.value == Some(PageRecord(site.country, m.name, sdata).value)))
  {
  }

  /** A page whose offers report a count of 0 still yields a record, with
      stock 0 and no details. */
  lemma ZeroCountRecorded(country: string, name: Json)
    ensures var offers := JObject([Member("count", JNum(0))]);
            var sdata := JObject([Member("props", JObject([Member("pageProps", JObject([Member("offers", offers)]))]))]);
            PageRecord(country, name, sdata) == Ok(StockRecord(country, name, 0, PreciseApi, ""))
  {
  }

  /** An entry holding just a title and a count renders as "title (count)". */
  lemma FuelEntryLabel(title: Json, count: Json)
    ensures FuelLabel(JObject([Member("title", title), Member("count", count)])) ==
            Ok(Render(title) + " (" + Render(count) + ")")
  {
    var ms := [Member("title", title), Member("count", count)];
    assert ms[1..] == [Member("count", count)];
    assert Lookup(ms, "title") == Some(title);
    assert Lookup(ms, "count") == Some(count);
  }

  /** A fuel entry holding just a title and a count. */
  function FuelEntry(title: Json, count: Json): Json {
    JObject([Member("title", title), Member("count", count)])
  }

  /** Offers with a positive count and two well-formed fuel entries are
      detailed as "t1 (c1), t2 (c2)". */
  lemma TwoFuelDetails(n: int, t1: Json, c1: Json, t2: Json, c2: Json)
    requires n > 0
    ensures var fuels := JArray([FuelEntry(t1, c1), FuelEntry(t2, c2)]);
            var offers := JObject([Member("count", JNum(n)), Member("filters", JObject([Member("fuelTypes", fuels)]))]);
            Details(offers, n) == Ok((Render(t1) + " (" + Render(c1) + ")") + ", " + (Render(t2) + " (" + Render(c2) + ")"))
  {
    var e1, e2 := FuelEntry(t1, c1), FuelEntry(t2, c2);
    var fuels := JArray([e1, e2]);
    var filters := JObject([Member("fuelTypes", fuels)]);
    var offers := JObject([Member("count", JNum(n)), Member("filters", filters)]);
    FuelEntryLabel(t1, c1);
    FuelEntryLabel(t2, c2);
    var l1, l2 := FuelLabel(e1).value, FuelLabel(e2).value;
    assert FuelLabels([e1, e2]).value == [l1, l2];
    assert offers.members[1..] == [Member("filters", filters)];
    assert Lookup(offers.members, "filters") == Some(filters);
    assert Lookup(filters.members, "fuelTypes") == Some(fuels);
    assert FuelTypes(offers) == Some(fuels);
    DetailsSpec(offers, n);
    assert [l1, l2][1..] == [l2];
    assert Join(", ", [l1, l2]) == l1 + ", " + l2;
  }
}

=== FILE: text.dfy ===
/** String helpers with the semantics of the Python built-ins the scraper uses:
    `str()` of an integer, `", ".join(...)`, prefix tests and a first-occurrence
    split, plus the character folding of `re.IGNORECASE`. */
module Text {

  import opened Results

  /** The decimal digit for 0 <= d < 10. */
  function Digit(d: nat): (c: char)
    requires d < 10
    ensures '0' <= c <= '9'
    ensures c as int - '0' as int == d
  {
    ('0' as int + d) as char
  }

  /** Python `str(n)` for a natural number: decimal, no leading zeros. */
  function NatToString(n: nat): (s: string)
    ensures |s| >= 1
    ensures forall i :: 0 <= i < |s| ==> '0' <= s[i] <= '9'
    ensures |s| > 1 ==> s[0] != '0'
    decreases n
  {
    if n < 10 then [Digit(n)] else NatToString(n / 10) + [Digit(n % 10)]
  }

  /** Python `str(n)` for any integer: a leading minus sign for negatives. */
  function IntToString(n: int): (s: string)
    ensures n < 0 <==> '-' in s
    ensures n >= 0 ==> s == NatToString(n)
  {
    if n < 0 then "-" + NatToString(-n) else NatToString(n)
  }

  /** Reads back a string of decimal digits; the inverse of NatToString. */
  function DigitsValue(s: string): nat
    requires forall i :: 0 <= i < |s| ==> '0' <= s[i] <= '9'
    decreases |s|
  {
    if s == [] then 0
    else 10 * DigitsValue(s[..|s| - 1]) + (s[|s| - 1] as int - '0' as int)
  }

  /** Rendering a number and reading it back gives the number: `str` on
      integers loses nothing. */
  lemma {:induction false} NatToStringRoundTrip(n: nat)
    ensures DigitsValue(NatToString(n)) == n
    decreases n
  {
    if n >= 10 {
      var s := NatToString(n);
      assert s[..|s| - 1] == NatToString(n / 10);
      NatToStringRoundTrip(n / 10);
    }
  }

  /** Python `sep.join(parts)`. */
  function Join(sep: string, parts: seq<string>): (s: string)
    ensures parts == [] ==> s == ""
    ensures |parts| >= 1 ==> |s| >= |parts[0]| && s[..|parts[0]|] == parts[0]
    decreases |parts|
  {
    if parts == [] then ""
    else if |parts| == 1 then parts[0]
    else parts[0] + sep + Join(sep, parts[1..])
  }

  predicate StartsWith(s: string, prefix: string) {
    |prefix| <= |s| && s[..|prefix|] == prefix
  }

  /** Splits at the first occurrence of `c`; None when `c` does not occur. */
  function SplitAt(s: string, c: char): (r: Option<(string, string)>)
    ensures r.None? <==> c !in s
    ensures r.Some? ==> r.value.0 + [c] + r.value.1 == s && c !in r.value.0
    decreases |s|
  {
    if s == [] then None
    else if s[0] == c then Some(([], s[1..]))
    else match SplitAt(s[1..], c)
      case None => None
      case Some(p) => Some(([s[0]] + p.0, p.1))
  }

  /** Splitting a string built around the first `c` recovers its two halves. */
  lemma {:induction false} SplitAtJoin(a: string, c: char, b: string)
    requires c !in a
    ensures SplitAt(a + [c] + b, c) == Some((a, b))
    decreases |a|
  {
    if a == [] {
      assert (a + [c] + b)[1..] == b;
    } else {
      assert (a + [c] + b)[1..] == a[1..] + [c] + b;
      SplitAtJoin(a[1..], c, b);
      assert [a[0]] + a[1..] == a;
    }
  }

  /** Case folding as Python's `re.IGNORECASE` applies it to the Latin letters:
      ASCII upper case to lower case, and the four non-ASCII letters the regular
      expression engine treats as equal to an ASCII one (long s, dotless i,
      dotted capital I, Kelvin sign). */
  function Fold(c: char): char {
    if 'A' <= c <= 'Z' then (c as int + 32) as char
    else if c == 'ſ' then 's'
    else if c == 'ı' || c == 'İ' then 'i'
    else if c == 'K' then 'k'
    else c
  }
}
